=== FILE: README.md ===
# music-thing bounce simulation, modelled in Dafny

music-thing turns a MIDI track into a video. A square ball bounces between
platforms, and it hits a platform exactly on the frames where notes play. This
project models the deterministic core of that program and proves properties of
the model:

- **The 3-D engine (main_3d.py).**
  - `Ball.move` uses an inclusive overlap test at the ball's current position.
    Only platforms inside the visible bounds count, and the first one in list
    order wins. The platform's orientation decides which speed component may
    flip. Walls the ball sweeps through are hidden.
  - The carve square tracks the area swept since the last bounce.
  - `Scene.update` works in two modes. In construction mode it places a
    platform one predicted step ahead on every note frame. In validation mode
    it raises on a missed or mistimed bounce.
  - `Scene.adjust_camera` moves the offset a fixed fraction towards the ball.
  - The wall grid is built by `create_squares` and `place_walls`.
  - `merge_rectangles` compacts wall cells by merging rectangles that share a
    full edge.
  - `choices_are_valid` is the prefix validator. `get_valid_platform_choices`
    is the backtracking search over per-note orientation choices.
- **The 2-D engine (main.py).**
  - `Ball.move` tests the next position with a strict overlap test. It
    resolves the first overlap along the side of least penetration and puts
    the ball flush against that side.
  - `Scene.update` works like the 3-D one, but with different platform sizing
    and placement.
  - `adjust_camera` is a dead-zone camera.
- **Helpers.** `lerp` and `animate_throb` (src/animation_stuff.py), and
  `brighten_color` and `fade_color` (src/color_stuff.py).

## Modules

| module | contents |
|---|---|
| `Options` | `Option` and `Result` |
| `Geometry` | `Rect` (x, y, width, height), `Box` (left, right, top, bottom), the inclusive `Touches`, strict `Overlaps` and `Covers` tests, and `TotalArea` |
| `Animation` | `Lerp`, Python's `%` as `PyMod`, and `AnimateThrob` |
| `Bounce` | the write-once bounce frame shared by both engines |
| `Carve` | the carve square |
| `Things3D` | the ball, platform and wall of main_3d.py, and `in_frame` |
| `Engine3D` | 3-D `Ball.move` |
| `RectMerge` | `merge_rectangles` |
| `WallGrid` | `create_squares` and `place_walls` |
| `Scene3D` | the 3-D `Scene` |
| `Solver` | `choices_are_valid` and `get_valid_platform_choices` |
| `Color` | `int(s, 16)`, `format(v, "02x")`, `brighten_color` and `fade_color` |
| `Engine2D` | the platform and ball of main.py |
| `Scene2D` | the 2-D `Scene` |

## Modelling decisions

- **Numbers.**
  - Coordinates and speeds are `real`. main.py keeps positions, sizes and
    screen sizes in integers, so its geometry is exact. Its camera band,
    `screen_width * 0.4` in `adjust_camera` (main.py:216-217), is a float
    product, which the model takes as the exact rational.
  - main_3d.py uses decimals such as 0.35 and 0.6. There, exact rationals
    stand in for IEEE doubles.
  - Frame counters and colour channels are `int`. Python's `//` with a
    positive divisor is Dafny's `/`. Python's `%` is written out as `PyMod`.
    `int()` of a float truncates toward zero and is modelled as `Trunc`.
- **Objects as values.** Mutable Python objects become immutable datatypes.
  Each method returns the updated value.
  - `Scene.update` returns the next scene together with the exception it
    raised, if any.
  - `Ball.move` returns the moved ball, the platforms (the hit one records the
    frame), the walls and the index of the hit platform.
- **Bounce-frame truthiness.** `set_expected_bounce_frame` tests the stored
  frame for truthiness, so a stored `None` or `0` is overwritten and any other
  value stays.
- **3-D camera.** In `Scene.adjust_camera` (main_3d.py) the edge is half the
  screen, so both branches of the speed test give the same target: the ball
  minus half the screen. The model keeps the interpolation towards that
  target.
- **2-D placement.** In `Scene.update` (main.py) a new upright platform is
  placed half of its *height* ahead of the predicted position along x.
  `Scene2D.UprightPlacementGap` states the result:
  - moving right, the platform starts a full ball width past the predicted
    left edge;
  - moving left, the platform ends `size - size // 2` short of it.
- **Randomness.** `random.choice` in the search becomes two inputs:
  - a `seed` bit for the first choice;
  - an oracle `flip` from the current prefix to a bit, which orders the two
    children.

  Every search node draws one coin and is visited at most once, so a
  per-prefix oracle covers every behaviour of the random stream.
- **Mutable default list.** `get_valid_platform_choices` has a mutable
  default list (main_3d.py:722-724). The model takes the persisted list as an
  argument and returns it, together with the result.
- **Missing orientation.**
  - 3-D `update` reads the orientation with `.get(frame, False)`.
  - 2-D `update` indexes the dict directly, so a missing frame raises
    `KeyError`. The model returns that as the `MissingOrientation` error.
- **Global `ball`.** main.py:173 reads the module-level `ball` instead of
  `self.ball`. The model uses the scene's own ball, which is the ball the
  program always passes in.
- **Empty `place_walls`.** `place_walls` takes `min` over an empty list when
  no cells exist, which raises. The model returns `None` there, and
  `WallGrid.PlaceWalls` states exactly when that happens.

## Model

| member | source | states |
|---|---|---|
| Animation.Lerp | src/animation_stuff.py:1-3 | alpha 0 gives start, alpha 1 gives end, and an alpha in [0, 1] gives a value between the two ends |
| Animation.PyMod | src/animation_stuff.py:10 | Python's `%`: the remainder takes the divisor's sign, is smaller in magnitude, and with the floor quotient `a // b` rebuilds `a` as `(a // b) * b + a % b` |
| Animation.AnimateThrob | src/animation_stuff.py:6-12 | for a positive width the throb never exceeds the peak and never drops below peak − width // 2 |
| Animation.ThrobPeriodic | src/animation_stuff.py:6-12 | the throb repeats with period `width` |
| Animation.ThrobPeakExactly | src/animation_stuff.py:6-12 | the throb equals the peak exactly when (n − 1) mod width is width // 2 |
| Bounce.RecordBounce | main_3d.py:225-228 | a stored non-zero frame stays; a stored None or 0 is replaced by the new frame |
| Bounce.WriteOnce | main_3d.py:225-228 | over any sequence of calls, a non-zero frame once stored never changes, and from an empty start the first non-zero frame recorded is the one kept |
| Bounce.Expectations | main_3d.py:433-436 | the expectation keys are exactly the frames some platform has recorded |
| Carve.LockedCorner | main_3d.py:382-397 | the locked corner is the one the ball moves away from, chosen by the signs of the two speeds |
| Carve.InitCarve | main_3d.py:377-397 | the fresh carve square is the ball's own box, and its locked corner follows the speed signs |
| Carve.UpdateCarve | main_3d.py:399-407 | only the corner opposite the locked one moves; the lock never changes |
| Carve.LatestUpdateWins | main_3d.py:399-407 | two updates in a row equal the later update alone |
| Carve.CarveCoversSweep | main_3d.py:377-407 | every ball position between the start of the sweep and the current one, in the direction of travel, lies inside the carve square |
| Things3D.NewBall | main_3d.py:235-248 | the ball sits at the given corner with the given size; both speeds start at `speed`; the carve square starts as the ball's box, locked at the corner the speeds move away from |
| Things3D.InFrameWiderBounds | main_3d.py:204-212 | a thing in frame stays in frame when the visible bounds widen |
| Things3D.InFrameCovered | main_3d.py:204-212 | a thing inside the bounds is in frame, and one wholly to one side of them is not |
| Things3D.SetExpectedBounceFrame | main_3d.py:225-228 | the platform keeps its rectangle, orientation and index; the bounce frame is write-once for non-zero values |
| Things3D.PredictAdds | main_3d.py:283-286 | predicting m frames and then n more from there is predicting m + n frames |
| Things3D.NewWalls | main_3d.py:588-590 | one visible wall per rectangle, in order |
| Engine3D.FirstHit | main_3d.py:295-314 | the hit is the first platform in list order that is in frame and inclusively touches the ball's current box; none means no platform qualifies |
| Engine3D.Deflect | main_3d.py:315-327 | each speed component is kept or negated; an orientation-True platform flips only y, and only when the vertical penetration is smallest; an orientation-False platform flips only x, under the horizontal test |
| Engine3D.CarveWalls | main_3d.py:341-370 | wall geometry is kept; a visible wall is hidden exactly when it is in frame and either touches the carve square or overlaps the hit platform; a hidden wall never reappears |
| Engine3D.Move | main_3d.py:288-375 | the first eligible platform is hit; speeds only change sign, on the axis the platform allows; the ball moves by its new speed with no repositioning; only the hit platform records the frame; walls only lose visibility, and none change when the wall list is empty; after a hit the speeds are the deflection off the hit platform; a visible wall is hidden exactly when it is in frame and touches the carve square (restarted at the new position after a hit) or overlaps the hit platform; with walls, the carve square is restarted on a hit and then stretched to the moved ball, and after a hit its lock follows the new speed signs |
| RectMerge.Merged | main_3d.py:73-89 | a merge exists exactly when the two rectangles share a full edge; the result's area is the sum of the two areas, and for non-degenerate inputs it is their bounding box |
| RectMerge.MergeableSymmetric | main_3d.py:73-89 | mergeability does not depend on argument order |
| RectMerge.Absorb | main_3d.py:96-106 | the accumulated rectangle plus the rest keep the total area; a reported merge shortens the rest and has a mergeable witness; no merge means nothing in the rest was mergeable |
| RectMerge.MergePass | main_3d.py:93-113 | one outer pass keeps the total area and never adds rectangles; it reports a change exactly when some pair was mergeable, and it leaves the list as it was otherwise |
| RectMerge.MergeRectangles | main_3d.py:72-115 | total area is preserved, the count never grows, and no two output rectangles are mergeable; an input with no mergeable pair comes back unchanged, so the function is idempotent |
| WallGrid.Sort | main_3d.py:572-573 | `sorted` yields an ordered permutation of its input |
| WallGrid.SortEnds | main_3d.py:572-573 | the sorted list starts at the minimum and ends at the maximum |
| WallGrid.CreateSquares | main_3d.py:570-579 | every cell has positive width and height and lies inside [min x, max x] × [min y, max y]; cells exist exactly when both coordinate lists have positive spread |
| WallGrid.CreateSquaresArea | main_3d.py:570-579 | the cell areas sum to (max x − min x) · (max y − min y) |
| WallGrid.GridArea | main_3d.py:574-579 | the cells of sorted coordinate lists tile the box spanned by their first and last entries |
| WallGrid.ColumnArea | main_3d.py:574-579 | the cells of one column sum to the column width times its height |
| WallGrid.ColumnSplit | main_3d.py:574-579 | two adjacent columns over the same rows add up to the merged column |
| WallGrid.CellsInRegion | main_3d.py:574-579 | cells from sorted lists have positive size and lie within the first and last coordinates |
| WallGrid.CellsNonEmpty | main_3d.py:574-579 | the grid has a cell exactly when both sorted lists have positive spread |
| WallGrid.CellExtents | main_3d.py:592-596 | the extents `place_walls` computes from the cells equal the extremes of the platform coordinates |
| WallGrid.ExtentsOf | main_3d.py:592-596 | bounds that every cell respects and some cell attains are the minimum and maximum `place_walls` computes |
| WallGrid.EdgeXs | main_3d.py:584-586 | both x edges of every platform, in platform order |
| WallGrid.EdgeYs | main_3d.py:584-586 | both y edges of every platform, in platform order |
| WallGrid.Borders | main_3d.py:598-608 | four visible walls two screens thick: a left and a right one flush against the box's sides, a top and a bottom one flush against its ends, together enclosing the box and its corners |
| WallGrid.PlaceWalls | main_3d.py:581-608 | walls are placed exactly when the platform edges have positive spread on both axes, and then the existing walls are followed by the cell walls and the four borders |
| WallGrid.PlaceWallsSucceeds | main_3d.py:581-596 | one platform of positive size is enough for `place_walls` to succeed |
| Scene3D.NewScene | main_3d.py:411-431 | a new scene holds the given screen size, ball, bounce frames and orientations, starts at frame 0 with zero camera offsets in construction mode, with no platforms, expectations or walls and no carving |
| Scene3D.SetPlatforms | main_3d.py:433-436 | validation mode with the given platforms, whose recorded frames become the expectations; ball, frame and walls are kept |
| Scene3D.SetWalls | main_3d.py:438-460 | without carving the walls are stored as given; with carving they are the merged rectangles, with the same total area, no more of them, no mergeable pair, all visible |
| Scene3D.VisibleBounds | main_3d.py:488-493 | the bounds are centred on the camera offset and are six screens wide and high |
| Scene3D.AdjustCamera | main_3d.py:542-559 | the offset closes the fraction ALPHA of its distance to the target, the ball minus half the screen |
| Scene3D.AdjustCameraApproaches | main_3d.py:542-559 | one adjustment moves each offset strictly toward the one that centres the ball without passing it, and a centred camera stays put |
| Scene3D.SettleCameraBetween | main_3d.py:542-559 | with the ball holding still, every later offset lies between the starting offset and the centring one |
| Scene3D.NewPlatformFor | main_3d.py:466-486 | the new platform has the chosen orientation, the next index and the size for that orientation; its corner is offset from the ball's predicted position by half its length along the platform and twice its thickness across it (horizontal) or the reverse (upright), toward the direction of travel; so for a ball smaller than the platform's length it lies clear of the ball |
| Scene3D.Staged | main_3d.py:466-486 | the platforms before the move are the old ones, plus, exactly on a construction note frame, the platform placed one predicted step ahead of the ball with the frame's orientation (false when none is given) and the next index |
| Scene3D.Update | main_3d.py:462-513 | the frame advances by one; construction never fails and adds a platform exactly on a note frame; validation fails exactly on a missed or mistimed bounce, reported at the new frame; the mode and its inputs never change; a completed frame leaves the ball, and the walls unless already carved, where `Move` puts them against the staged platforms, and then moves the camera by `AdjustCamera` from the old offsets |
| Scene3D.UpdatePlatforms | main_3d.py:466-500 | existing platforms keep their rectangle, orientation and index, and a recorded non-zero frame; an added platform takes the next index, the chosen orientation and the rectangle placed ahead of the ball; consecutive indices are kept |
| Scene3D.HitIsFirstHit | main_3d.py:494-500 | in validation mode the hit platform is the first eligible one of the platforms the scene holds |
| Solver.RunConstruction | main_3d.py:702-706 | a construction run of n frames ends n frames later with one platform per note frame passed, indexed consecutively |
| Solver.RunValidationFrames | main_3d.py:708-717 | a validation replay either completes all n frames or fails at a frame within them |
| Solver.RunValidationFailureKept | main_3d.py:708-717 | once a replay has failed, running it longer reports the same failure |
| Solver.IteratePasses | main_3d.py:712-717 | a loop of steps that raise exactly in the failing states completes exactly when none of the states it passes through fails |
| Solver.RunValidationPasses | main_3d.py:712-717 | a validation replay of n frames completes exactly when none of its n frames misses a recorded bounce or hits a platform that recorded another frame |
| Solver.RunValidationPrefixFrames | main_3d.py:712-715 | after k completed validation frames the scene is at frame k past its start |
| Solver.ValidationVerdict | main_3d.py:712-719 | a replay from frame zero passes its n frames exactly when every frame 1 to n is reached and none of them fails |
| Solver.Replay | main_3d.py:708-711 | the replay is a fresh ball at frame 0 in validation mode over exactly the platforms the construction pass placed |
| Solver.ChoicesAreValid | main_3d.py:695-719 | the choices are valid exactly when, replaying the placed platforms from a fresh ball, each of the frames 1 to the last chosen note frame is reached and neither misses a recorded bounce nor hits a platform recorded for another frame |
| Solver.ChoiceMap | main_3d.py:696-699 | the i-th choice is keyed by the i-th sorted note frame, and no other key is present |
| Solver.Build | main_3d.py:695-706 | the construction pass yields consecutively indexed platforms, one per note frame up to the last chosen one |
| Solver.BuildPlacesOnePerChoice | main_3d.py:695-706 | the construction pass places exactly one platform per choice |
| Solver.CountTargetsPrefix | main_3d.py:699-706 | running up to the m-th note frame passes exactly m note frames |
| Solver.Search | main_3d.py:739-763 | a result extends the prefix to full length, and every prefix along the way is valid; a failing prefix is pruned |
| Solver.SearchComplete | main_3d.py:739-763 | if some full extension has every prefix valid, the search finds a result |
| Solver.GetValidPlatformChoices | main_3d.py:722-763 | the default list gains the seed choice when empty; a result has one choice per note frame, starts with that list and is valid; an invalid start gives None |
| Solver.GetValidPlatformChoicesComplete | main_3d.py:722-763 | when a valid full extension exists, the search returns a result |
| Color.ParseHex | src/color_stuff.py:3 | `int(s, 16)` succeeds exactly on a non-empty string of hex digits |
| Color.Slice | src/color_stuff.py:3 | Python slicing: at most j − i characters, and the exact slice when the string is long enough |
| Color.HexDigitsValue | src/color_stuff.py:11 | the hex rendering uses lower-case digits and parses back to its value |
| Color.Format02xByte | src/color_stuff.py:11 | `02x` renders a byte as two lower-case digits that parse back to it |
| Color.BrightenColor | src/color_stuff.py:1-11 | the result exists exactly when all three channels parse |
| Color.FormatColorRoundTrip | src/color_stuff.py:11 | a formatted colour of three bytes is canonical and parses back to those bytes |
| Color.BrightenRoundTrip | src/color_stuff.py:1-11 | for a valid colour and a non-negative increase, the output is canonical and its channels are min(255, c + increase) of the input channels |
| Color.ReformatValidColor | src/color_stuff.py:3-11 | parsing a valid colour and formatting it again gives the lower-cased input |
| Color.BrightenByZero | src/color_stuff.py:1-11 | brightening by 0 gives the lower-cased input |
| Color.Trunc | src/color_stuff.py:28-30 | `int()` of a float truncates toward zero |
| Color.FadeColor | src/color_stuff.py:14-33 | a channel that does not parse raises ValueError, and zero frames raise ZeroDivisionError; nothing else fails |
| Color.FadeChannelBetween | src/color_stuff.py:28-30 | for a frame between 0 and the frame count, a channel lies between its start and end values |
| Color.FadeChannelEnds | src/color_stuff.py:28-30 | a channel starts at its start value and ends at its end value |
| Color.FadeAtFirstFrame | src/color_stuff.py:14-33 | frame 0 gives the lower-cased start colour |
| Color.FadeAtLastFrame | src/color_stuff.py:14-33 | the last frame gives the lower-cased destination colour |
| Color.FadeStaysBetween | src/color_stuff.py:14-33 | every intermediate colour is canonical, and each of its channels lies between the start and destination channels |
| Engine2D.SetExpectedBounceFrame | main.py:45-48 | the rectangle is kept; the bounce frame is write-once for non-zero values |
| Engine2D.PredictAdds | main.py:60-63 | predicting m frames and then n more from there is predicting m + n frames |
| Engine2D.FirstOverlap | main.py:72-93 | the hit is the first platform in list order that the box strictly overlaps; none means none overlaps |
| Engine2D.ResolveSide | main.py:95-105 | the side of least penetration, with ties going to left, then right, then top, then bottom; exactly one side is chosen |
| Engine2D.BounceOff | main.py:106-125 | only the resolved axis changes: the speed's sign is set by the side, and the ball sits flush against that side |
| Engine2D.Move | main.py:65-135 | the first strictly overlapping platform at the next position is hit; without a hit the ball steps at the same speed; with a hit the ball is repositioned flush, its sign is set by the side, and it then steps; only the hit platform records the frame |
| Engine2D.MoveWithoutHitIsPredicted | main.py:60-63 | without a hit the ball lands where a one-frame prediction puts it |
| Engine2D.MoveKeepsSpeed | main.py:65-135 | a move keeps both speed magnitudes and the size |
| Engine2D.BounceSeparates | main.py:106-125 | after the flush placement the ball no longer strictly overlaps the platform |
| Engine2D.BounceTurnsAway | main.py:106-125 | after a bounce the speed on the resolved axis points out of the side that was hit |
| Scene2D.NewBall | main.py:55-58 | the ball's box is the given square, and both speeds equal `speed` |
| Scene2D.NewScene | main.py:139-156 | a new scene holds the given screen size, ball and orientation map, and the note frames as a set; it starts at frame 0 in construction mode with no platforms, no expectations and zero offsets |
| Scene2D.SetPlatforms | main.py:158-163 | validation mode with the given platforms, whose recorded frames become the expectations; ball and frame are kept |
| Scene2D.FollowAxis | main.py:215-225 | the ball ends inside the 40 % dead zone; an offset already inside it is kept; no other offset inside the zone is closer to the old one |
| Scene2D.AdjustCamera | main.py:215-225 | only the offsets change, and afterwards the ball is inside the dead zone on both axes |
| Scene2D.NewPlatformFor | main.py:168-197 | the new platform has size (size // 2, 2 · size), swapped when the choice is True, and is offset from the predicted position by half its size in the direction of travel |
| Scene2D.UprightPlacementGap | main.py:174-190 | moving right, an upright platform starts a full ball width past the predicted left edge; moving left, it ends size − size // 2 short of it |
| Scene2D.Stage | main.py:168-197 | a construction note frame without an orientation raises; otherwise exactly one platform is appended on a construction note frame and none elsewhere |
| Scene2D.Check | main.py:200-205 | a missed bounce exactly when nothing is hit on an expected frame; a mistimed bounce exactly when the hit platform already held a different non-zero frame |
| Scene2D.Update | main.py:165-206 | the frame advances by one; construction fails only on a missing orientation; validation fails exactly on a missed or mistimed bounce at the new frame; once staged, the ball ends where `Move` puts it against the staged platforms, and the platforms are the staged list (with the construction platform appended) with the hit platform's frame recorded by `Move`; a completed frame ends with the camera adjusted |
| Scene2D.UpdatePlatforms | main.py:165-206 | a frame past staging keeps every placed platform's rectangle and any non-zero frame it recorded, and on a construction note frame appends exactly one platform, the one placed ahead of the ball with the frame's orientation |
| Scene2D.Run | main.py:165-206 | a run of n frames ends after between 1 and n frames, and after exactly n when nothing is raised; the mode is kept |
| Scene2D.UpdateKeepsSpeed | main.py:165-206 | a frame keeps both speed magnitudes |
| Scene2D.RunKeepsSpeed | main.py:165-206 | any number of frames keeps both speed magnitudes and the ball size |
| Scene2D.UpdateConstructionCount | main.py:165-197 | a construction frame with an orientation for every note frame never raises, and adds a platform exactly on a note frame |
| Scene2D.RunConstruction | main.py:165-197 | a construction run with an orientation for every note frame never raises, and adds one platform per note frame passed |
| Scene2D.ScriptConstruction | main.py:228-253 | the script's construction pass, from its screen and starting ball with an orientation for every note frame, never raises, reaches frame n and places one platform per note frame passed |
| Scene2D.UpdateKeepsBallCentred | main.py:206-225 | after every completed frame the ball is inside the camera's dead zone |

## Left out

- Rendering and the game-engine layer. This covers `Thing.render`,
  `Ball.render`, `Scene.render`, `render_full_image`, `create_mesh`,
  `CustomWall`, `calculate_vertices`, and the lights. None of it affects the
  simulation.
- Camera rotation (main_3d.py:561-568). It writes the engine's camera object
  and has no effect on the simulation.
- Colours. This covers `set_color`, `color_changed`, the random colour after
  a hit (main_3d.py:502-505) and `Ball.hit`'s shrink animation. They are
  cosmetic.
- `hex_to_rgba`. main_3d.py imports it, but it is not part of this model.
- MIDI reading and video writing: src/midi_stuff.py, src/video_stuff.py and
  show_video_stats.py. These are I/O, and note frames enter the model as a
  plain set or list of integers.
- Interactive viewers: 3d.py and midi_track_viewer.py, which are UI event
  loops.
- The top-level script of main.py (main.py:228-303), apart from its
  construction pass (`Scene2D.ScriptConstruction`). It does MIDI and video
  I/O at import time and runs a random-restart loop.
- `run_simulation` and the command-line entry of main_3d.py. They are I/O
  and orchestration around the modelled functions.
- The progress line `get_valid_platform_choices` prints (main_3d.py:726-734).
  It is output only.
- The `click.echo` messages in `set_walls`. They are output only.
- IEEE floating point. Every coordinate is an exact `real`, so the
  `min_overlap ==` tie tests of main.py and the decimal constants of
  main_3d.py are idealised. So is main.py's camera band
  `screen_width * 0.4` (main.py:216-217), which `Scene2D.FollowAxis`,
  `Scene2D.AdjustCamera` and `Scene2D.UpdateKeepsBallCentred` use as an
  exact product.
- Color.ParseHex: accepts only ASCII hex digits. Python's `int(s, 16)`
  also accepts a sign, surrounding whitespace, single underscores between
  digits, a `0x` prefix and non-ASCII decimal digits (such as Arabic-Indic
  digits, so "١٢" gives 18). `Color.ParseHex` fails on all of these,
  because the model has no Unicode digit table.
- Color.BrightenColor: the default `increase=20` of `brighten_color`
  (src/color_stuff.py:1) is not modelled. Dafny functions have no default
  arguments, so callers pass the increase explicitly.
- `Color.FadeColor`: `int()` of a channel is modelled on exact reals, so a
  channel whose float product rounds across an integer is not modelled.
- `Solver.GetValidPlatformChoices`: requires a non-empty, strictly
  increasing list of note frames. The source crashes on empty note frames
  (main_3d.py:699-700), and `sorted(list(...))` of a set is strictly
  increasing. It also requires the starting choice list to be no longer
  than the note frames. A longer list makes `frame_list[idx]` raise
  IndexError in the source (main_3d.py:697-698), and that error path is not
  modelled.
- `Scene3D.NewScene`: `bounce_frames=None` and `platform_orientations=None`
  are modelled as an empty set and an empty map. The validation scene never
  reads them.
- `Scene2D.Update`: main.py:173 reads the global `ball`. It is modelled as
  the scene's own ball.

=== FILE: animation.dfy ===
/** The two pure helpers of src/animation_stuff.py. */
module Animation {

  /** `lerp(start, end, alpha)`: linear interpolation over exact reals. */
  function Lerp(start: real, end: real, alpha: real): (r: real)
    ensures alpha == 0.0 ==> r == start
    ensures alpha == 1.0 ==> r == end
    ensures 0.0 <= alpha <= 1.0 && start <= end ==> start <= r <= end
    ensures 0.0 <= alpha <= 1.0 && end <= start ==> end <= r <= start
  {
    if 0.0 <= alpha <= 1.0 then
      LerpBetween(start, end, alpha);
      start + (end - start) * alpha
    else
      start + (end - start) * alpha
  }

  lemma LerpBetween(start: real, end: real, alpha: real)
    requires 0.0 <= alpha <= 1.0
    ensures start <= end ==> 0.0 <= (end - start) * alpha <= end - start
    ensures end <= start ==> end - start <= (end - start) * alpha <= 0.0
  {
    if start <= end {
      MulNonNegative(end - start, alpha);
      MulNonNegative(end - start, 1.0 - alpha);
    } else {
      MulNonNegative(start - end, alpha);
      MulNonNegative(start - end, 1.0 - alpha);
    }
  }

  lemma MulNonNegative(a: real, b: real)
    requires 0.0 <= a && 0.0 <= b
    ensures 0.0 <= a * b
  {
  }

  /** Python's `a % b`: the remainder takes the sign of the divisor and
      `a == (a // b) * b + a % b`. Dafny's `%` is Euclidean, so the two
      differ when `b < 0`. */
  function PyMod(a: int, b: int): (r: int)
    requires b != 0
    ensures b > 0 ==> 0 <= r < b
    ensures b < 0 ==> b < r <= 0
    ensures a == FloorDiv(a, b) * b + r
  {
    if b > 0 || a % b == 0 then a % b
    else
      assert (a / b - 1) * b == a / b * b - b;
      a % b + b
  }

  /** Python's `a // b`, rounding toward minus infinity; paired with `PyMod`
      it splits `a` into a whole multiple of `b` and the remainder. */
  function FloorDiv(a: int, b: int): int
    requires b != 0
  {
    if b > 0 || a % b == 0 then a / b else a / b - 1
  }

  function Abs(n: int): nat { if n < 0 then -n else n }

  /** `animate_throb(n, peak, width)`: a triangle wave of period `width`
      that reaches `peak` once per period and falls by one per step away
      from it. A zero `width` is Python's ZeroDivisionError, hence the
      precondition. `width // 2` has a positive divisor, where Dafny's `/`
      and Python's `//` agree. */
  function AnimateThrob(n: int, peak: real, width: int): (r: real)
    requires width != 0
    ensures width > 0 ==> r <= peak
    ensures width > 0 ==> peak - (width / 2) as real <= r
  {
    var midpoint := width / 2;
    var positionInCycle := Abs(PyMod(n - 1, width) - midpoint);
    peak - positionInCycle as real
  }

  lemma PyModShift(a: int, b: int)
    requires b != 0
    ensures PyMod(a + b, b) == PyMod(a, b)
  {
    var q := a / b;
    assert a + b == (q + 1) * b + a % b;
    ModUnique(a + b, b, q + 1, a % b);
  }

  /** Dafny's Euclidean remainder is the unique r in [0, |b|) with x == q * b + r. */
  lemma ModUnique(x: int, b: int, q: int, r: int)
    requires b != 0 && 0 <= r < Abs(b) && x == q * b + r
    ensures x % b == r
  {
    var q' := x / b;
    var r' := x % b;
    assert (q' - q) * b == r - r';
    if q' - q > 0 {
      MulAtLeast(q' - q, b);
    } else if q' - q < 0 {
      MulAtLeast(q - q', b);
    }
  }

  lemma MulAtLeast(k: int, b: int)
    requires k >= 1
    ensures Abs(k * b) >= Abs(b)
  {
    if b >= 0 {
      assert k * b == b + (k - 1) * b;
    } else {
      assert k * (-b) == -b + (k - 1) * (-b);
    }
  }

  /** The wave repeats every `width` steps. */
  lemma ThrobPeriodic(n: int, peak: real, width: int)
    requires width != 0
    ensures AnimateThrob(n + width, peak, width) == AnimateThrob(n, peak, width)
  {
    PyModShift(n - 1, width);
  }

  /** The wave is at its peak exactly on the steps whose phase is the
      midpoint of the cycle. */
  lemma ThrobPeakExactly(n: int, peak: real, width: int)
    requires width > 0
    ensures AnimateThrob(n, peak, width) == peak <==> (n - 1) % width == width / 2
  {
  }
}

=== FILE: bounce.dfy ===
/** `Platform.set_expected_bounce_frame`, identical in both engines: the
    guard is Python truthiness, so an unset frame (None) and a recorded
    frame 0 are both overwritten, and any other recorded frame is kept. */
module Bounce {
  import opened Options

  function RecordBounce(current: Option<int>, frame: int): (r: Option<int>)
    ensures current.Some? && current.value != 0 ==> r == current
    ensures current.None? || current.value == 0 ==> r == Some(frame)
  {
    if current.Some? && current.value != 0 then current else Some(frame)
  }

  /** The recorded bounce frames of a platform list: the keys of the
      expectation dictionary `Scene.set_platforms` builds, apart from the
      `None` key, which can never equal a frame number. */
  function Expectations(recorded: seq<Option<int>>): (r: set<int>)
    ensures forall f :: f in r <==> exists k :: 0 <= k < |recorded| && recorded[k] == Some(f)
  {
    set k | 0 <= k < |recorded| && recorded[k].Some? :: recorded[k].value
  }

  /** The recorded frame after `set_expected_bounce_frame` has been called
      with each of `frames` in turn. */
  function RecordAll(current: Option<int>, frames: seq<int>): Option<int>
    decreases |frames|
  {
    if |frames| == 0 then current else RecordAll(RecordBounce(current, frames[0]), frames[1..])
  }

  /** The first non-zero entry of `frames`, if any. */
  function FirstNonZero(frames: seq<int>): (r: Option<int>)
    ensures r.Some? ==> r.value != 0 && r.value in frames
    ensures r.None? ==> forall i :: 0 <= i < |frames| ==> frames[i] == 0
  {
    if |frames| == 0 then None
    else if frames[0] != 0 then Some(frames[0])
    else FirstNonZero(frames[1..])
  }

  /** Write-once: a non-zero recorded frame survives every later call, and
      from an unset (or zero) start the first non-zero frame offered wins. */
  lemma {:induction false} WriteOnce(current: Option<int>, frames: seq<int>)
    ensures current.Some? && current.value != 0 ==> RecordAll(current, frames) == current
    ensures (current.None? || current.value == 0) && FirstNonZero(frames).Some? ==>
      RecordAll(current, frames) == FirstNonZero(frames)
    decreases |frames|
  {
    if |frames| > 0 {
      WriteOnce(RecordBounce(current, frames[0]), frames[1..]);
    }
  }
}

=== FILE: carve.dfy ===
/** The ball's carve square (main_3d.py, `Ball._initialize_carve_square`,
    `Ball._update_carve_square` and the box computed in `Ball.move`): one
    corner is pinned where the ball was when the square was initialised and
    the opposite corner follows the ball, so the square approximates the
    region swept since then. */
module Carve {
  import opened Geometry

  datatype Point = Point(x: real, y: real)

  datatype Corner = TopLeft | TopRight | BottomLeft | BottomRight

  datatype CarveSquare = CarveSquare(topLeft: Point, topRight: Point, bottomLeft: Point, bottomRight: Point, locked: Corner)

  /** The pinned corner is the one the ball moves away from. A zero speed
      counts as moving left or up (the source tests `> 0`). */
  function LockedCorner(vx: real, vy: real): (c: Corner)
    ensures c == TopLeft <==> vx > 0.0 && vy > 0.0
    ensures c == BottomLeft <==> vx > 0.0 && vy <= 0.0
    ensures c == TopRight <==> vx <= 0.0 && vy > 0.0
    ensures c == BottomRight <==> vx <= 0.0 && vy <= 0.0
  {
    if vx > 0.0 then (if vy > 0.0 then TopLeft else BottomLeft)
    else (if vy > 0.0 then TopRight else BottomRight)
  }

  /** The box spanned by the four corners (the `min`/`max` in `Ball.move`). */
  function CarveBox(c: CarveSquare): Box {
    Box(Min(c.topLeft.x, c.bottomLeft.x), Max(c.topRight.x, c.bottomRight.x),
        Min(c.topLeft.y, c.topRight.y), Max(c.bottomLeft.y, c.bottomRight.y))
  }

  function Min(a: real, b: real): real { if a <= b then a else b }

  function Max(a: real, b: real): real { if a >= b then a else b }

  /** `_initialize_carve_square` for a square ball of side `size` at (x, y):
      the square starts as exactly the ball's own box. */
  function InitCarve(x: real, y: real, size: real, vx: real, vy: real): (c: CarveSquare)
    ensures size >= 0.0 ==> CarveBox(c) == Rect(x, y, size, size).Edges()
    ensures c.locked == LockedCorner(vx, vy)
  {
    CarveSquare(Point(x, y), Point(x + size, y), Point(x, y + size), Point(x + size, y + size), LockedCorner(vx, vy))
  }

  function CornerAt(c: CarveSquare, k: Corner): Point {
    match k
    case TopLeft => c.topLeft
    case TopRight => c.topRight
    case BottomLeft => c.bottomLeft
    case BottomRight => c.bottomRight
  }

  function Opposite(k: Corner): Corner {
    match k
    case TopLeft => BottomRight
    case TopRight => BottomLeft
    case BottomLeft => TopRight
    case BottomRight => TopLeft
  }

  /** `_update_carve_square` with the ball at (x, y): only the corner
      opposite the pinned one moves, to the ball's far corner pushed one
      unit further out. */
  function UpdateCarve(c: CarveSquare, x: real, y: real, size: real): (r: CarveSquare)
    ensures r.locked == c.locked
    ensures forall k :: k != Opposite(c.locked) ==> CornerAt(r, k) == CornerAt(c, k)
  {
    match c.locked
    case TopLeft => c.(bottomRight := Point(x + size + 1.0, y + size + 1.0))
    case TopRight => c.(bottomLeft := Point(x - 1.0, y + size + 1.0))
    case BottomLeft => c.(topRight := Point(x + size + 1.0, y - 1.0))
    case BottomRight => c.(topLeft := Point(x - 1.0, y - 1.0))
  }

  /** Only the latest update counts: the moving corner tracks the ball. */
  lemma LatestUpdateWins(c: CarveSquare, x1: real, y1: real, x2: real, y2: real, size: real)
    ensures UpdateCarve(UpdateCarve(c, x1, y1, size), x2, y2, size) == UpdateCarve(c, x2, y2, size)
  {
  }

  /** A square initialised at (x0, y0) with speed (vx, vy) and updated with
      the ball at (qx, qy), further along the direction of motion, covers
      the ball's box at every position in between, both ends included. */
  lemma CarveCoversSweep(x0: real, y0: real, size: real, vx: real, vy: real,
                         qx: real, qy: real, mx: real, my: real)
    requires size >= 0.0
    requires vx > 0.0 ==> x0 <= mx <= qx
    requires vx <= 0.0 ==> qx <= mx <= x0
    requires vy > 0.0 ==> y0 <= my <= qy
    requires vy <= 0.0 ==> qy <= my <= y0
    ensures Covers(CarveBox(UpdateCarve(InitCarve(x0, y0, size, vx, vy), qx, qy, size)), Rect(mx, my, size, size))
  {
  }
}

=== FILE: color.dfy ===
/** The `#rrggbb` helpers of src/color_stuff.py: parse three hexadecimal
    channels, transform them, and print them back with `{:02x}`. */
module Color {
  import opened Options
  import Animation

  predicate IsHexDigit(c: char) {
    '0' <= c <= '9' || 'a' <= c <= 'f' || 'A' <= c <= 'F'
  }

  predicate IsLowerHexDigit(c: char) {
    '0' <= c <= '9' || 'a' <= c <= 'f'
  }

  function DigitValue(c: char): (v: nat)
    requires IsHexDigit(c)
    ensures v < 16
  {
    if '0' <= c <= '9' then c as int - '0' as int
    else if 'a' <= c <= 'f' then c as int - 'a' as int + 10
    else c as int - 'A' as int + 10
  }

  /** The lower-case digit that `{:x}` prints for a value below 16. */
  function LowerDigit(v: nat): (c: char)
    requires v < 16
    ensures IsLowerHexDigit(c) && IsHexDigit(c) && DigitValue(c) == v
  {
    if v < 10 then ('0' as int + v) as char else ('a' as int + v - 10) as char
  }

  /** Python's `str.lower()` on one character of the ASCII range. */
  function ToLower(c: char): char {
    if 'A' <= c <= 'Z' then (c as int - 'A' as int + 'a' as int) as char else c
  }

  function Lower(s: string): (r: string)
    ensures |r| == |s|
    ensures forall i :: 0 <= i < |s| ==> r[i] == ToLower(s[i])
  {
    seq(|s|, i requires 0 <= i < |s| => ToLower(s[i]))
  }

  /** Python's forgiving slice `s[i:j]` for 0 <= i <= j: indices past the
      end are clipped, so a short string gives a short (or empty) slice. */
  function Slice(s: string, i: nat, j: nat): (r: string)
    requires i <= j
    ensures |r| <= j - i
    ensures |s| >= j ==> r == s[i..j]
  {
    var hi := if j <= |s| then j else |s|;
    var lo := if i <= hi then i else hi;
    s[lo..hi]
  }

  predicate AllHexDigits(s: string) {
    forall i :: 0 <= i < |s| ==> IsHexDigit(s[i])
  }

  function HexValue(s: string): nat
    requires AllHexDigits(s)
  {
    if |s| == 0 then 0 else 16 * HexValue(s[..|s| - 1]) + DigitValue(s[|s| - 1])
  }

  /** `int(s, 16)` for strings of plain hexadecimal digits; the empty
      string is Python's ValueError. */
  function ParseHex(s: string): (r: Option<nat>)
    ensures r.Some? <==> |s| > 0 && AllHexDigits(s)
  {
    if |s| > 0 && AllHexDigits(s) then Some(HexValue(s)) else None
  }

  /** The digits `{:x}` prints for a natural number, most significant first. */
  function HexDigits(v: nat): (r: string)
    ensures |r| >= 1 && r[|r| - 1] == LowerDigit(v % 16)
    decreases v
  {
    if v < 16 then [LowerDigit(v)]
    else HexDigits(v / 16) + [LowerDigit(v % 16)]
  }

  /** The printed digits are lower-case hexadecimal digits whose value is
      the number printed. */
  lemma {:induction false} HexDigitsValue(v: nat)
    ensures forall i :: 0 <= i < |HexDigits(v)| ==> IsLowerHexDigit(HexDigits(v)[i])
    ensures AllHexDigits(HexDigits(v)) && HexValue(HexDigits(v)) == v
    decreases v
  {
    if v >= 16 {
      HexDigitsValue(v / 16);
      var r := HexDigits(v);
      assert r[..|r| - 1] == HexDigits(v / 16);
    }
  }

  /** `f"{v:02x}"`: at least two characters, zero-padded after the sign. */
  function Format02x(v: int): string {
    if v >= 0 then
      var digits := HexDigits(v);
      if |digits| < 2 then "0" + digits else digits
    else
      "-" + HexDigits(-v)
  }

  /** A channel value below 256 prints as exactly two lower-case digits
      that parse back to it. */
  lemma Format02xByte(v: int)
    requires 0 <= v < 256
    ensures |Format02x(v)| == 2
    ensures IsLowerHexDigit(Format02x(v)[0]) && IsLowerHexDigit(Format02x(v)[1])
    ensures ParseHex(Format02x(v)) == Some(v)
  {
    var s := Format02x(v);
    if v < 16 {
      assert s == ['0', LowerDigit(v)];
      assert s[..1] == ['0'];
      assert HexValue(s[..1]) == 16 * HexValue([]) + 0;
    } else {
      var d := HexDigits(v);
      assert d == HexDigits(v / 16) + [LowerDigit(v % 16)];
      assert v / 16 < 16;
      assert d == [LowerDigit(v / 16), LowerDigit(v % 16)];
      assert d[..1] == [LowerDigit(v / 16)];
      assert HexValue(d[..1]) == 16 * HexValue([]) + v / 16;
    }
  }

  /** The three channels `int(c[1:3], 16)`, `int(c[3:5], 16)`, `int(c[5:7], 16)`,
      or None where Python raises ValueError. */
  function ParseChannels(hex: string): Option<(nat, nat, nat)> {
    match (ParseHex(Slice(hex, 1, 3)), ParseHex(Slice(hex, 3, 5)), ParseHex(Slice(hex, 5, 7)))
    case (Some(r), Some(g), Some(b)) => Some((r, g, b))
    case _ => None
  }

  function FormatColor(r: int, g: int, b: int): string {
    "#" + Format02x(r) + Format02x(g) + Format02x(b)
  }

  /** A well-formed `#rrggbb` colour, digits in either case. */
  predicate ValidColor(hex: string) {
    |hex| == 7 && hex[0] == '#' && AllHexDigits(hex[1..])
  }

  /** `#` followed by six lower-case hexadecimal digits. */
  predicate CanonicalColor(hex: string) {
    |hex| == 7 && hex[0] == '#' && forall i :: 1 <= i < 7 ==> IsLowerHexDigit(hex[i])
  }

  function Min(a: int, b: int): int { if a <= b then a else b }

  /** `brighten_color(hex_color, increase)`: add `increase` to every channel,
      clamped above at 255. */
  function BrightenColor(hex: string, increase: int): (r: Option<string>)
    ensures r.Some? <==> ParseChannels(hex).Some?
  {
    match ParseChannels(hex)
    case None => None
    case Some((red, green, blue)) =>
      Some(FormatColor(Min(255, red + increase), Min(255, green + increase), Min(255, blue + increase)))
  }

  /** Printing three byte-sized channels gives a canonical colour whose
      channels parse back to the same values. */
  lemma {:induction false} FormatColorRoundTrip(r: int, g: int, b: int)
    requires 0 <= r < 256 && 0 <= g < 256 && 0 <= b < 256
    ensures CanonicalColor(FormatColor(r, g, b))
    ensures ParseChannels(FormatColor(r, g, b)) == Some((r, g, b))
  {
    Format02xByte(r);
    Format02xByte(g);
    Format02xByte(b);
    ThreePairs(Format02x(r), Format02x(g), Format02x(b));
    CanonicalOfPairs(Format02x(r), Format02x(g), Format02x(b));
  }

  lemma CanonicalOfPairs(a: string, b: string, c: string)
    requires |a| == 2 && |b| == 2 && |c| == 2
    requires IsLowerHexDigit(a[0]) && IsLowerHexDigit(a[1]) && IsLowerHexDigit(b[0])
    requires IsLowerHexDigit(b[1]) && IsLowerHexDigit(c[0]) && IsLowerHexDigit(c[1])
    ensures CanonicalColor("#" + a + b + c)
  {
    var s := "#" + a + b + c;
    ThreePairs(a, b, c);
    forall i | 1 <= i < 7 ensures IsLowerHexDigit(s[i]) {
      if i == 1 { assert s[i] == a[0]; }
      else if i == 2 { assert s[i] == a[1]; }
      else if i == 3 { assert s[i] == b[0]; }
      else if i == 4 { assert s[i] == b[1]; }
      else if i == 5 { assert s[i] == c[0]; }
      else { assert s[i] == c[1]; }
    }
  }

  /** `#` and three two-character strings: where each character lands and
      which slices give the pairs back. */
  lemma ThreePairs(a: string, b: string, c: string)
    requires |a| == 2 && |b| == 2 && |c| == 2
    ensures var s := "#" + a + b + c;
      && |s| == 7 && s[0] == '#'
      && s[1] == a[0] && s[2] == a[1] && s[3] == b[0] && s[4] == b[1] && s[5] == c[0] && s[6] == c[1]
      && Slice(s, 1, 3) == a && Slice(s, 3, 5) == b && Slice(s, 5, 7) == c
  {
    var s := "#" + a + b + c;
    assert s[1..3] == a;
    assert s[3..5] == b;
    assert s[5..7] == c;
  }

  /** The channels of a valid colour are its three digit pairs. */
  lemma ValidColorChannels(hex: string)
    requires ValidColor(hex)
    ensures ParseChannels(hex).Some?
    ensures var (r, g, b) := ParseChannels(hex).value;
      r < 256 && g < 256 && b < 256
  {
    ValidColorPairs(hex);
    PairValue(hex[1..3]);
    PairValue(hex[3..5]);
    PairValue(hex[5..7]);
  }

  lemma PairValue(s: string)
    requires |s| == 2 && AllHexDigits(s)
    ensures HexValue(s) == 16 * DigitValue(s[0]) + DigitValue(s[1]) < 256
  {
    assert s[..|s| - 1] == [s[0]];
    assert [s[0]][..0] == [];
    assert HexValue([s[0]]) == 16 * HexValue([]) + DigitValue(s[0]);
  }

  /** For a valid colour and a non-negative increase, the result is a
      canonical colour whose channels are the input channels plus the
      increase, clamped at 255. */
  lemma BrightenRoundTrip(hex: string, increase: int)
    requires ValidColor(hex) && increase >= 0
    ensures BrightenColor(hex, increase).Some?
    ensures var out := BrightenColor(hex, increase).value;
      var (r, g, b) := ParseChannels(hex).value;
      CanonicalColor(out)
      && ParseChannels(out) == Some((Min(255, r + increase), Min(255, g + increase), Min(255, b + increase)))
  {
    ValidColorChannels(hex);
    BrightenValue(hex, increase);
    FormatColorRoundTrip(Min(255, ParseChannels(hex).value.0 + increase),
                         Min(255, ParseChannels(hex).value.1 + increase),
                         Min(255, ParseChannels(hex).value.2 + increase));
  }

  lemma BrightenValue(hex: string, increase: int)
    requires ParseChannels(hex).Some?
    ensures BrightenColor(hex, increase).value ==
      FormatColor(Min(255, ParseChannels(hex).value.0 + increase),
                  Min(255, ParseChannels(hex).value.1 + increase),
                  Min(255, ParseChannels(hex).value.2 + increase))
  {
  }

  /** Printing the value of two hex digits gives the same digits in lower case. */
  lemma FormatPairIsLower(s: string)
    requires |s| == 2 && AllHexDigits(s)
    ensures Format02x(HexValue(s)) == Lower(s)
  {
    PairValue(s);
    var v := HexValue(s);
    Format02xByte(v);
    var f := Format02x(v);
    assert HexValue(f) == v;
    PairValue(f);
    DigitPairUnique(f, s);
    LowerOfDigit(s[0], f[0]);
    LowerOfDigit(s[1], f[1]);
  }

  lemma DigitPairUnique(f: string, s: string)
    requires |f| == 2 && |s| == 2 && AllHexDigits(f) && AllHexDigits(s)
    requires 16 * DigitValue(f[0]) + DigitValue(f[1]) == 16 * DigitValue(s[0]) + DigitValue(s[1])
    ensures DigitValue(f[0]) == DigitValue(s[0]) && DigitValue(f[1]) == DigitValue(s[1])
  {
  }

  lemma LowerOfDigit(c: char, d: char)
    requires IsHexDigit(c) && IsLowerHexDigit(d) && DigitValue(c) == DigitValue(d)
    ensures d == ToLower(c)
  {
  }

  /** A valid colour prints back as itself in lower case. */
  lemma {:induction false} ReformatValidColor(hex: string)
    requires ValidColor(hex)
    ensures ParseChannels(hex).Some?
    ensures var (r, g, b) := ParseChannels(hex).value;
      FormatColor(r, g, b) == Lower(hex)
  {
    ValidColorChannels(hex);
    ValidColorPairs(hex);
    FormatPairIsLower(hex[1..3]);
    FormatPairIsLower(hex[3..5]);
    FormatPairIsLower(hex[5..7]);
    LowerSplit(hex);
  }

  /** The three digit pairs of a valid colour are hexadecimal digits. */
  lemma ValidColorPairs(hex: string)
    requires ValidColor(hex)
    ensures AllHexDigits(hex[1..3]) && AllHexDigits(hex[3..5]) && AllHexDigits(hex[5..7])
    ensures Slice(hex, 1, 3) == hex[1..3] && Slice(hex, 3, 5) == hex[3..5] && Slice(hex, 5, 7) == hex[5..7]
  {
    forall i | 1 <= i < 7 ensures IsHexDigit(hex[i]) {
      assert hex[1..][i - 1] == hex[i];
    }
  }

  lemma LowerSplit(hex: string)
    requires |hex| == 7 && hex[0] == '#'
    ensures Lower(hex) == "#" + Lower(hex[1..3]) + Lower(hex[3..5]) + Lower(hex[5..7])
  {
    var rhs := "#" + Lower(hex[1..3]) + Lower(hex[3..5]) + Lower(hex[5..7]);
    forall i | 0 <= i < 7 ensures Lower(hex)[i] == rhs[i] {
    }
  }

  /** With no increase, a valid colour comes back lower-cased. */
  lemma BrightenByZero(hex: string)
    requires ValidColor(hex)
    ensures BrightenColor(hex, 0) == Some(Lower(hex))
  {
    ValidColorChannels(hex);
    ReformatValidColor(hex);
  }

  /** The exceptions `fade_color` can raise. */
  datatype ColorError = ValueError | ZeroDivisionError

  /** Python's `int(x)` on a float: truncation toward zero. */
  function Trunc(x: real): (r: int)
    ensures x >= 0.0 ==> r as real <= x < r as real + 1.0
    ensures x < 0.0 ==> r as real - 1.0 < x <= r as real
  {
    if x >= 0.0 then x.Floor else -((-x).Floor)
  }

  /** One channel of `fade_color`: `start + (end - start) * (curr / num_frames)`,
      which is `lerp` at `curr / num_frames`, truncated. */
  function FadeChannel(start: int, end: int, numFrames: int, curr: int): int
    requires numFrames != 0
  {
    Trunc(Animation.Lerp(start as real, end as real, curr as real / numFrames as real))
  }

  /** `fade_color(start, dest, num_frames, curr_frame_number)`. Both colours
      are parsed before the division, so a malformed colour is reported
      before a zero frame count. */
  function FadeColor(startHex: string, destHex: string, numFrames: int, curr: int): (r: Result<string, ColorError>)
    ensures r == Err(ValueError) <==> ParseChannels(startHex).None? || ParseChannels(destHex).None?
    ensures r == Err(ZeroDivisionError) <==>
      ParseChannels(startHex).Some? && ParseChannels(destHex).Some? && numFrames == 0
  {
    match (ParseChannels(startHex), ParseChannels(destHex))
    case (Some((rs, gs, bs)), Some((re, ge, be))) =>
      if numFrames == 0 then Err(ZeroDivisionError)
      else Ok(FormatColor(FadeChannel(rs, re, numFrames, curr),
                          FadeChannel(gs, ge, numFrames, curr),
                          FadeChannel(bs, be, numFrames, curr)))
    case _ => Err(ValueError)
  }

  /** Between the first and the last frame each channel stays between its
      start and its destination value. */
  lemma FadeChannelBetween(start: nat, end: nat, numFrames: int, curr: int)
    requires 0 <= curr <= numFrames && numFrames != 0
    ensures Min(start, end) <= FadeChannel(start, end, numFrames, curr) <= Max(start, end)
  {
    UnitFraction(curr as real, numFrames as real);
    var x := Animation.Lerp(start as real, end as real, curr as real / numFrames as real);
    assert Min(start, end) as real <= x <= Max(start, end) as real;
    TruncBetween(x, Min(start, end), Max(start, end));
  }

  lemma UnitFraction(c: real, n: real)
    requires 0.0 <= c <= n && n != 0.0
    ensures 0.0 <= c / n <= 1.0
  {
  }

  /** Truncating a real between two integers stays between them. */
  lemma TruncBetween(x: real, lo: int, hi: int)
    requires lo as real <= x <= hi as real
    ensures lo <= Trunc(x) <= hi
  {
  }

  function Max(a: int, b: int): int { if a >= b then a else b }

  /** At frame 0 the fade gives the start colour, lower-cased. */
  lemma FadeAtFirstFrame(startHex: string, destHex: string, numFrames: int)
    requires ValidColor(startHex) && ValidColor(destHex) && numFrames != 0
    ensures FadeColor(startHex, destHex, numFrames, 0) == Ok(Lower(startHex))
  {
    ValidColorChannels(startHex);
    ValidColorChannels(destHex);
    ReformatValidColor(startHex);
    var (rs, gs, bs) := ParseChannels(startHex).value;
    var (re, ge, be) := ParseChannels(destHex).value;
    FadeChannelEnds(rs, re, numFrames);
    FadeChannelEnds(gs, ge, numFrames);
    FadeChannelEnds(bs, be, numFrames);
  }

  /** At frame `num_frames` the fade gives the destination colour, lower-cased. */
  lemma FadeAtLastFrame(startHex: string, destHex: string, numFrames: int)
    requires ValidColor(startHex) && ValidColor(destHex) && numFrames != 0
    ensures FadeColor(startHex, destHex, numFrames, numFrames) == Ok(Lower(destHex))
  {
    ValidColorChannels(startHex);
    ValidColorChannels(destHex);
    ReformatValidColor(destHex);
    var (rs, gs, bs) := ParseChannels(startHex).value;
    var (re, ge, be) := ParseChannels(destHex).value;
    FadeChannelEnds(rs, re, numFrames);
    FadeChannelEnds(gs, ge, numFrames);
    FadeChannelEnds(bs, be, numFrames);
  }

  lemma FadeChannelEnds(start: int, end: int, numFrames: int)
    requires numFrames != 0
    ensures FadeChannel(start, end, numFrames, 0) == start
    ensures FadeChannel(start, end, numFrames, numFrames) == end
  {
    var n := numFrames as real;
    assert 0 as real / n == 0.0;
    assert numFrames as real / n == 1.0;
    TruncInt(start);
    TruncInt(end);
  }

  lemma TruncInt(k: int)
    ensures Trunc(k as real) == k
  {
    if k < 0 {
      assert (-(k as real)) == (-k) as real;
    }
  }

  /** For 0 <= curr <= num_frames the fade is a canonical colour whose
      channels lie between the start and destination channels. */
  lemma FadeStaysBetween(startHex: string, destHex: string, numFrames: int, curr: int)
    requires ValidColor(startHex) && ValidColor(destHex) && 0 <= curr <= numFrames && numFrames != 0
    ensures FadeColor(startHex, destHex, numFrames, curr).Ok?
    ensures var (rs, gs, bs) := ParseChannels(startHex).value;
      var (re, ge, be) := ParseChannels(destHex).value;
      var out := FadeColor(startHex, destHex, numFrames, curr).value;
      CanonicalColor(out)
      && ParseChannels(out).Some?
      && var (r, g, b) := ParseChannels(out).value;
      Min(rs, re) <= r <= Max(rs, re) && Min(gs, ge) <= g <= Max(gs, ge) && Min(bs, be) <= b <= Max(bs, be)
  {
    ValidColorChannels(startHex);
    ValidColorChannels(destHex);
    var (rs, gs, bs) := ParseChannels(startHex).value;
    var (re, ge, be) := ParseChannels(destHex).value;
    FadeChannelBetween(rs, re, numFrames, curr);
    FadeChannelBetween(gs, ge, numFrames, curr);
    FadeChannelBetween(bs, be, numFrames, curr);
    FormatColorRoundTrip(FadeChannel(rs, re, numFrames, curr),
                         FadeChannel(gs, ge, numFrames, curr),
                         FadeChannel(bs, be, numFrames, curr));
  }
}

=== FILE: engine2d.dfy ===
/** `Platform` and `Ball` of main.py: the 2-D engine. Unlike the 3-D one it
    tests the ball's next position with a strict overlap test, resolves the
    first overlap along the side of least penetration and puts the ball flush
    against that side before it moves. */
module Engine2D {
  import opened Options
  import opened Geometry
  import Bounce

  datatype Platform = Platform(rect: Rect, expected: Option<int>)

  /** A square ball; `size` is an integer as in the source, whose
      `ball.width // 2` sizes the platforms. */
  datatype Ball = Ball(x: real, y: real, size: int, vx: real, vy: real) {
    function Box(): Rect { Rect(x, y, size as real, size as real) }
  }

  function SetExpectedBounceFrame(p: Platform, frame: int): (r: Platform)
    ensures r.rect == p.rect
    // Python truthiness: a recorded non-zero frame stays, None or 0 is overwritten
    ensures p.expected.Some? && p.expected.value != 0 ==> r.expected == p.expected
    ensures p.expected.None? || p.expected.value == 0 ==> r.expected == Some(frame)
  {
    p.(expected := Bounce.RecordBounce(p.expected, frame))
  }

  /** `Ball.predict_position(frames)`. */
  function PredictPosition(b: Ball, frames: int): (real, real) {
    (b.x + b.vx * frames as real, b.y + b.vy * frames as real)
  }

  /** Predicting m frames ahead and then n more from there is predicting
      m + n frames ahead. */
  lemma PredictAdds(b: Ball, m: int, n: int)
    ensures var p := PredictPosition(b, m);
      PredictPosition(b.(x := p.0, y := p.1), n) == PredictPosition(b, m + n)
  {
    Advance(b.x, b.vx, m, n);
    Advance(b.y, b.vy, m, n);
    var c := b.(x := PredictPosition(b, m).0, y := PredictPosition(b, m).1);
    assert PredictPosition(c, n).0 == PredictPosition(b, m + n).0;
    assert PredictPosition(c, n).1 == PredictPosition(b, m + n).1;
  }

  lemma Advance(start: real, v: real, m: int, n: int)
    ensures (start + v * m as real) + v * n as real == start + v * (m + n) as real
  {
    assert (m + n) as real == m as real + n as real;
  }

  /** The ball's box one step ahead at its current speed. */
  function NextBox(b: Ball): Rect {
    Rect(b.x + b.vx, b.y + b.vy, b.size as real, b.size as real)
  }

  datatype Side = Left | Right | Top | Bottom

  function Abs(v: real): real { if v < 0.0 then -v else v }

  function Min4(a: real, b: real, c: real, d: real): (m: real)
    ensures m <= a && m <= b && m <= c && m <= d
    ensures m == a || m == b || m == c || m == d
  {
    var ab := if a <= b then a else b;
    var cd := if c <= d then c else d;
    if ab <= cd then ab else cd
  }

  /** The side of least penetration of `ball` into `p`; ties go to the
      earlier of left, right, top, bottom. */
  function ResolveSide(ball: Rect, p: Rect): (side: Side)
    ensures var l, r, t, b := ball.Right() - p.x, p.Right() - ball.x, ball.Bottom() - p.y, p.Bottom() - ball.y;
      && (side == Left <==> l <= r && l <= t && l <= b)
      && (side == Right <==> r < l && r <= t && r <= b)
      && (side == Top <==> t < l && t < r && t <= b)
      && (side == Bottom <==> b < l && b < r && b < t)
  {
    var overlapLeft := ball.Right() - p.x;
    var overlapRight := p.Right() - ball.x;
    var overlapTop := ball.Bottom() - p.y;
    var overlapBottom := p.Bottom() - ball.y;
    var minOverlap := Min4(overlapLeft, overlapRight, overlapTop, overlapBottom);
    if minOverlap == overlapLeft then Left
    else if minOverlap == overlapRight then Right
    else if minOverlap == overlapTop then Top
    else Bottom
  }

  /** The first platform whose rectangle the box strictly overlaps. */
  function FirstOverlap(box: Rect, platforms: seq<Platform>, from: nat): (r: Option<nat>)
    requires from <= |platforms|
    ensures r.Some? ==> from <= r.value < |platforms| && Overlaps(box.Edges(), platforms[r.value].rect)
    ensures r.Some? ==> forall j :: from <= j < r.value ==> !Overlaps(box.Edges(), platforms[j].rect)
    ensures r.None? ==> forall j :: from <= j < |platforms| ==> !Overlaps(box.Edges(), platforms[j].rect)
    decreases |platforms| - from
  {
    if from == |platforms| then None
    else if Overlaps(box.Edges(), platforms[from].rect) then Some(from)
    else FirstOverlap(box, platforms, from + 1)
  }

  /** The ball after bouncing off `p` on `side`, before it moves: the speed on
      that axis points away from the platform and the ball sits flush against
      that side. */
  function BounceOff(b: Ball, p: Rect, side: Side): (r: Ball)
    ensures r.size == b.size
    ensures side == Left ==> r == b.(vx := -Abs(b.vx), x := p.x - b.size as real)
    ensures side == Right ==> r == b.(vx := Abs(b.vx), x := p.Right())
    ensures side == Top ==> r == b.(vy := -Abs(b.vy), y := p.y - b.size as real)
    ensures side == Bottom ==> r == b.(vy := Abs(b.vy), y := p.Bottom())
  {
    match side
    case Left => b.(vx := -Abs(b.vx), x := p.x - b.size as real)
    case Right => b.(vx := Abs(b.vx), x := p.Right())
    case Top => b.(vy := -Abs(b.vy), y := p.y - b.size as real)
    case Bottom => b.(vy := Abs(b.vy), y := p.Bottom())
  }

  datatype MoveResult = MoveResult(ball: Ball, platforms: seq<Platform>, hit: Option<nat>)

  /** `Ball.move(platforms, frame)`. */
  function Move(ball: Ball, platforms: seq<Platform>, frame: int): (r: MoveResult)
    // the hit is the first platform the next box strictly overlaps
    ensures r.hit.Some? ==> r.hit.value < |platforms| && Overlaps(NextBox(ball).Edges(), platforms[r.hit.value].rect)
    ensures r.hit.Some? ==> forall j :: 0 <= j < r.hit.value ==> !Overlaps(NextBox(ball).Edges(), platforms[j].rect)
    ensures r.hit.None? ==> forall j :: 0 <= j < |platforms| ==> !Overlaps(NextBox(ball).Edges(), platforms[j].rect)
    // no hit: one step at the same speed
    ensures r.hit.None? ==> r.ball == ball.(x := ball.x + ball.vx, y := ball.y + ball.vy)
    // a hit: flush against the resolved side, speed sign set by the side, then one step
    ensures r.hit.Some? ==>
      var p := platforms[r.hit.value].rect;
      var side := ResolveSide(NextBox(ball), p);
      && r.ball.size == ball.size
      && (side == Left ==> r.ball.vx == -Abs(ball.vx) && r.ball.vy == ball.vy
                           && r.ball.x == p.x - ball.size as real + r.ball.vx && r.ball.y == ball.y + ball.vy)
      && (side == Right ==> r.ball.vx == Abs(ball.vx) && r.ball.vy == ball.vy
                            && r.ball.x == p.Right() + r.ball.vx && r.ball.y == ball.y + ball.vy)
      && (side == Top ==> r.ball.vy == -Abs(ball.vy) && r.ball.vx == ball.vx
                          && r.ball.y == p.y - ball.size as real + r.ball.vy && r.ball.x == ball.x + ball.vx)
      && (side == Bottom ==> r.ball.vy == Abs(ball.vy) && r.ball.vx == ball.vx
                             && r.ball.y == p.Bottom() + r.ball.vy && r.ball.x == ball.x + ball.vx)
    // only the hit platform records the frame
    ensures |r.platforms| == |platforms|
    ensures forall i :: 0 <= i < |platforms| && r.hit != Some(i) ==> r.platforms[i] == platforms[i]
    ensures r.hit.Some? ==> r.platforms[r.hit.value] == SetExpectedBounceFrame(platforms[r.hit.value], frame)
  {
    var hit := FirstOverlap(NextBox(ball), platforms, 0);
    if hit.None? then
      MoveResult(ball.(x := ball.x + ball.vx, y := ball.y + ball.vy), platforms, None)
    else
      var p := platforms[hit.value];
      var bounced := BounceOff(ball, p.rect, ResolveSide(NextBox(ball), p.rect));
      var moved := bounced.(x := bounced.x + bounced.vx, y := bounced.y + bounced.vy);
      MoveResult(moved, platforms[hit.value := SetExpectedBounceFrame(p, frame)], hit)
  }

  /** Without a hit the ball lands where one frame of prediction puts it. */
  lemma MoveWithoutHitIsPredicted(ball: Ball, platforms: seq<Platform>, frame: int)
    ensures var r := Move(ball, platforms, frame);
      r.hit.None? ==> (r.ball.x, r.ball.y) == PredictPosition(ball, 1)
  {
  }

  /** A move keeps the ball's speed: a bounce only sets the sign of the
      component on the axis it resolves. */
  lemma MoveKeepsSpeed(ball: Ball, platforms: seq<Platform>, frame: int)
    ensures var r := Move(ball, platforms, frame);
      Abs(r.ball.vx) == Abs(ball.vx) && Abs(r.ball.vy) == Abs(ball.vy) && r.ball.size == ball.size
  {
    var r := Move(ball, platforms, frame);
    if r.hit.Some? {
      var side := ResolveSide(NextBox(ball), platforms[r.hit.value].rect);
      assert side == Left || side == Right || side == Top || side == Bottom;
    }
  }

  /** After a bounce, and before the ball moves on, it only touches the
      platform it hit: it sits flush against the resolved side. */
  lemma BounceSeparates(b: Ball, p: Rect, side: Side)
    requires b.size >= 0 && p.width >= 0.0 && p.height >= 0.0
    ensures side == Left || side == Right ==> !Overlaps(BounceOff(b, p, side).Box().Edges(), p)
    ensures side == Top || side == Bottom ==> !Overlaps(BounceOff(b, p, side).Box().Edges(), p)
  {
  }

  /** A bounce turns the ball away from the platform: after it the speed on
      the resolved axis points out of the side it hit, so the next step does
      not push the ball further into the platform on that axis. */
  lemma BounceTurnsAway(b: Ball, p: Rect, side: Side)
    ensures var r := BounceOff(b, p, side);
      && (side == Left ==> r.vx <= 0.0) && (side == Right ==> r.vx >= 0.0)
      && (side == Top ==> r.vy <= 0.0) && (side == Bottom ==> r.vy >= 0.0)
  {
  }
}

=== FILE: engine3d.dfy ===
/** `Ball.move` of main_3d.py: the collision step of the 3-D engine.
    The overlap test is inclusive and uses the ball's CURRENT box; the
    first visible platform in list order that touches it is the one hit;
    the platform's orientation decides which speed component may flip; the
    ball is not repositioned. Walls touched by the carve box, or overlapped
    by the platform just hit, are hidden. */
module Engine3D {
  import opened Options
  import opened Geometry
  import opened Carve
  import opened Things3D
  import Bounce

  /** A platform the ball can hit: inside the visible bounds and touching
      the ball's box. */
  predicate Eligible(ball: Rect, p: Platform, bounds: Box) {
    InFrame(p.rect, bounds) && Touches(ball.Edges(), p.rect)
  }

  /** The first platform from index `from` on that the ball hits. */
  function FirstHit(ball: Rect, platforms: seq<Platform>, bounds: Box, from: nat): (r: Option<nat>)
    requires from <= |platforms|
    ensures r.Some? ==> from <= r.value < |platforms| && Eligible(ball, platforms[r.value], bounds)
    ensures r.Some? ==> forall j :: from <= j < r.value ==> !Eligible(ball, platforms[j], bounds)
    ensures r.None? ==> forall j :: from <= j < |platforms| ==> !Eligible(ball, platforms[j], bounds)
    decreases |platforms| - from
  {
    if from == |platforms| then None
    else if Eligible(ball, platforms[from], bounds) then Some(from)
    else FirstHit(ball, platforms, bounds, from + 1)
  }

  /** Penetration depth through each side of the platform. */
  datatype Penetration = Penetration(left: real, right: real, top: real, bottom: real)

  function PenetrationOf(ball: Rect, p: Rect): Penetration {
    Penetration(ball.Right() - p.x, p.Right() - ball.x, ball.Bottom() - p.y, p.Bottom() - ball.y)
  }

  function Min(a: real, b: real): real { if a <= b then a else b }

  /** The smallest penetration is through the top or the bottom. */
  predicate VerticalSmallest(d: Penetration) {
    Min(d.top, d.bottom) <= Min(d.left, d.right)
  }

  /** The smallest penetration is through the left or the right side. */
  predicate HorizontalSmallest(d: Penetration) {
    Min(d.left, d.right) <= Min(d.top, d.bottom)
  }

  /** The speed after hitting platform p (lines 315-327): a horizontal
      platform flips the y speed when the smallest penetration is vertical,
      a vertical one flips the x speed when it is horizontal. */
  function Deflect(ball: Ball, p: Platform): (v: (real, real))
    ensures v.0 == ball.vx || v.0 == -ball.vx
    ensures v.1 == ball.vy || v.1 == -ball.vy
    ensures p.orientation ==> v.0 == ball.vx
    ensures !p.orientation ==> v.1 == ball.vy
    ensures p.orientation ==>
      v.1 == (if VerticalSmallest(PenetrationOf(ball.Box(), p.rect)) then -ball.vy else ball.vy)
    ensures !p.orientation ==>
      v.0 == (if HorizontalSmallest(PenetrationOf(ball.Box(), p.rect)) then -ball.vx else ball.vx)
  {
    var d := PenetrationOf(ball.Box(), p.rect);
    var minOverlap := Min(Min(Min(d.left, d.right), d.top), d.bottom);
    if p.orientation then
      (ball.vx, if minOverlap == d.top || minOverlap == d.bottom then -ball.vy else ball.vy)
    else
      (if minOverlap == d.left || minOverlap == d.right then -ball.vx else ball.vx, ball.vy)
  }

  /** The wall loop of `Ball.move` for one wall (lines 341-370). */
  function CarveWall(w: Wall, carveBox: Box, hit: Option<Rect>, bounds: Box): Wall {
    if !InFrame(w.rect, bounds) then w
    else
      var touched := Touches(carveBox, w.rect);
      var underPlatform := hit.Some? && Overlaps(hit.value.Edges(), w.rect);
      if touched || underPlatform then w.(visible := false) else w
  }

  /** Walls only ever go from visible to hidden; a visible wall in the
      visible bounds is hidden exactly when the carve box touches it or the
      platform just hit overlaps it. */
  function CarveWalls(walls: seq<Wall>, carveBox: Box, hit: Option<Rect>, bounds: Box): (r: seq<Wall>)
    ensures |r| == |walls|
    ensures forall i :: 0 <= i < |walls| ==> r[i].rect == walls[i].rect
    ensures forall i :: 0 <= i < |walls| ==> r[i].visible ==> walls[i].visible
    ensures forall i :: 0 <= i < |walls| && walls[i].visible ==>
      (!r[i].visible <==> InFrame(walls[i].rect, bounds)
                          && (Touches(carveBox, walls[i].rect) || (hit.Some? && Overlaps(hit.value.Edges(), walls[i].rect))))
  {
    seq(|walls|, i requires 0 <= i < |walls| => CarveWall(walls[i], carveBox, hit, bounds))
  }

  datatype MoveResult = MoveResult(ball: Ball, platforms: seq<Platform>, walls: seq<Wall>, hit: Option<nat>)

  /** `Ball.move(platforms, walls, frame, visible_bounds)`. */
  function Move(ball: Ball, platforms: seq<Platform>, walls: seq<Wall>, frame: int, bounds: Box): (r: MoveResult)
    // which platform is hit
    ensures r.hit.Some? ==> r.hit.value < |platforms| && Eligible(ball.Box(), platforms[r.hit.value], bounds)
    ensures r.hit.Some? ==> forall j :: 0 <= j < r.hit.value ==> !Eligible(ball.Box(), platforms[j], bounds)
    ensures r.hit.None? ==> forall j :: 0 <= j < |platforms| ==> !Eligible(ball.Box(), platforms[j], bounds)
    // speed: sign changes only, on the axis the platform allows
    ensures r.ball.vx == ball.vx || r.ball.vx == -ball.vx
    ensures r.ball.vy == ball.vy || r.ball.vy == -ball.vy
    ensures r.hit.None? ==> r.ball.vx == ball.vx && r.ball.vy == ball.vy
    ensures r.hit.Some? && platforms[r.hit.value].orientation ==> r.ball.vx == ball.vx
    ensures r.hit.Some? && !platforms[r.hit.value].orientation ==> r.ball.vy == ball.vy
    ensures r.hit.Some? ==> (r.ball.vx, r.ball.vy) == Deflect(ball, platforms[r.hit.value])
    // position: no repositioning, one step at the new speed
    ensures r.ball.x == ball.x + r.ball.vx && r.ball.y == ball.y + r.ball.vy
    ensures r.ball.size == ball.size
    // platforms: only the hit one records the frame
    ensures |r.platforms| == |platforms|
    ensures forall i :: 0 <= i < |platforms| && r.hit != Some(i) ==> r.platforms[i] == platforms[i]
    ensures r.hit.Some? ==> r.platforms[r.hit.value] == SetExpectedBounceFrame(platforms[r.hit.value], frame)
    // walls: geometry kept, visibility only lost
    ensures |r.walls| == |walls|
    ensures forall i :: 0 <= i < |walls| ==> r.walls[i].rect == walls[i].rect
    ensures forall i :: 0 <= i < |walls| ==> r.walls[i].visible ==> walls[i].visible
    // a visible wall is hidden exactly when it is in frame and touches the carve
    // square (restarted at the new position after a hit) or the hit platform
    ensures forall i :: 0 <= i < |walls| && walls[i].visible ==>
      var carveBox := CarveBox(if r.hit.Some? then InitCarve(r.ball.x, r.ball.y, ball.size, r.ball.vx, r.ball.vy) else ball.carve);
      (!r.walls[i].visible <==>
         InFrame(walls[i].rect, bounds)
         && (Touches(carveBox, walls[i].rect)
             || (r.hit.Some? && Overlaps(platforms[r.hit.value].rect.Edges(), walls[i].rect))))
    // carve square: untouched without walls; restarted on a hit, pinned by the new speed signs
    ensures |walls| == 0 ==> r.ball.carve == ball.carve
    ensures |walls| > 0 && r.hit.None? ==> r.ball.carve.locked == ball.carve.locked
    ensures |walls| > 0 && r.hit.Some? ==> r.ball.carve.locked == LockedCorner(r.ball.vx, r.ball.vy)
    // after the walls, the free corner follows the moved ball
    ensures |walls| > 0 ==>
      var start := if r.hit.Some? then InitCarve(r.ball.x, r.ball.y, ball.size, r.ball.vx, r.ball.vy) else ball.carve;
      r.ball.carve == UpdateCarve(start, r.ball.x, r.ball.y, ball.size)
  {
    var hit := FirstHit(ball.Box(), platforms, bounds, 0);
    var speed := if hit.Some? then Deflect(ball, platforms[hit.value]) else (ball.vx, ball.vy);
    var newPlatforms :=
      if hit.Some? then platforms[hit.value := SetExpectedBounceFrame(platforms[hit.value], frame)] else platforms;
    var moved := ball.(x := ball.x + speed.0, y := ball.y + speed.1, vx := speed.0, vy := speed.1);
    var isCarving := |walls| > 0;
    var restarted :=
      if isCarving && hit.Some? then moved.(carve := InitCarve(moved.x, moved.y, moved.size, moved.vx, moved.vy))
      else moved;
    var hitRect := if hit.Some? then Some(platforms[hit.value].rect) else None;
    var newWalls := CarveWalls(walls, CarveBox(restarted.carve), hitRect, bounds);
    var finalBall :=
      if isCarving then restarted.(carve := UpdateCarve(restarted.carve, restarted.x, restarted.y, restarted.size))
      else restarted;
    MoveResult(finalBall, newPlatforms, newWalls, hit)
  }
}

=== FILE: geometry.dfy ===
/** Axis-aligned rectangles in screen coordinates (x grows to the right,
    y grows downward), as used by every `Thing` of both engines. */
module Geometry {

  /** A rectangle given by its top-left corner and its extent. */
  datatype Rect = Rect(x: real, y: real, width: real, height: real) {

    function Right(): real { x + width }

    function Bottom(): real { y + height }

    function Area(): real { width * height }

    /** The four edge coordinates of this rectangle. */
    function Edges(): Box { Box(x, x + width, y, y + height) }
  }

  /** A box given by its four edge coordinates. This is the shape of
      `visible_bounds` (left, right, top, bottom), of the ball's carve box
      and of a rectangle's edges. */
  datatype Box = Box(left: real, right: real, top: real, bottom: real)

  /** Inclusive overlap test: boxes that only share an edge or a corner
      count. This one shape of test is `Thing.in_frame`, the 3-D ball/platform
      test and the carve/wall test. */
  predicate Touches(b: Box, r: Rect) {
    b.right >= r.x && b.left <= r.Right() && b.bottom >= r.y && b.top <= r.Bottom()
  }

  /** Strict overlap test: the interiors intersect. */
  predicate Overlaps(b: Box, r: Rect) {
    b.right > r.x && b.left < r.Right() && b.bottom > r.y && b.top < r.Bottom()
  }

  /** Box `outer` contains rectangle `r`. */
  predicate Covers(outer: Box, r: Rect) {
    outer.left <= r.x && r.Right() <= outer.right && outer.top <= r.y && r.Bottom() <= outer.bottom
  }

  function TotalArea(rs: seq<Rect>): real {
    if |rs| == 0 then 0.0 else rs[0].Area() + TotalArea(rs[1..])
  }

  lemma {:induction false} TotalAreaConcat(a: seq<Rect>, b: seq<Rect>)
    ensures TotalArea(a + b) == TotalArea(a) + TotalArea(b)
    decreases |a|
  {
    if |a| == 0 {
      assert a + b == b;
    } else {
      assert (a + b)[1..] == a[1..] + b;
      TotalAreaConcat(a[1..], b);
    }
  }

  /** Removing the element at index i (Python's `list.pop(i)`) removes exactly its area. */
  lemma TotalAreaRemove(s: seq<Rect>, i: int)
    requires 0 <= i < |s|
    ensures TotalArea(s[..i] + s[i + 1..]) + s[i].Area() == TotalArea(s)
  {
    TotalAreaSplitAt(s, i);
    TotalAreaConcat(s[..i], s[i + 1..]);
  }

  lemma TotalAreaSplitAt(s: seq<Rect>, i: int)
    requires 0 <= i < |s|
    ensures TotalArea(s) == TotalArea(s[..i]) + (s[i].Area() + TotalArea(s[i + 1..]))
  {
    assert s == s[..i] + s[i..];
    TotalAreaConcat(s[..i], s[i..]);
    assert s[i..][1..] == s[i + 1..];
  }
}

=== FILE: options.dfy ===
/** Failure-carrying wrappers shared by every module of the model.
    Python's `None` becomes `None`; a raised exception becomes `Err`. */
module Options {

  datatype Option<+T> = None | Some(value: T)

  datatype Result<+T, +E> = Ok(value: T) | Err(error: E)
}

=== FILE: rect_merge.dfy ===
/** `merge_rectangles` of main_3d.py: compaction of the surviving wall
    cells by repeatedly gluing pairs of rectangles that share a full edge. */
module RectMerge {
  import opened Options
  import opened Geometry

  /** a and b share a full horizontal edge: same x and width, one directly
      above the other. */
  predicate StackedVertically(a: Rect, b: Rect) {
    a.x == b.x && a.width == b.width && (a.y + a.height == b.y || b.y + b.height == a.y)
  }

  /** a and b share a full vertical edge: same y and height, one directly
      left of the other. */
  predicate SideBySide(a: Rect, b: Rect) {
    a.y == b.y && a.height == b.height && (a.x + a.width == b.x || b.x + b.width == a.x)
  }

  /** The smallest box holding both rectangles. */
  function Hull(a: Rect, b: Rect): Box {
    Box(Min(a.x, b.x), Max(a.Right(), b.Right()), Min(a.y, b.y), Max(a.Bottom(), b.Bottom()))
  }

  function Min(a: real, b: real): real { if a <= b then a else b }

  function Max(a: real, b: real): real { if a >= b then a else b }

  /** The inner `merged(a, b)`: the union of a and b when they share a full
      edge, otherwise None. The four `if`s are tried in source order. */
  function Merged(a: Rect, b: Rect): (r: Option<Rect>)
    ensures r.Some? <==> StackedVertically(a, b) || SideBySide(a, b)
    ensures r.Some? ==> r.value.Area() == a.Area() + b.Area()
    ensures r.Some? && a.width > 0.0 && a.height > 0.0 && b.width > 0.0 && b.height > 0.0 ==>
      r.value.Edges() == Hull(a, b)
  {
    if a.x == b.x && a.width == b.width && a.y + a.height == b.y then
      Some(Rect(a.x, a.y, a.width, a.height + b.height))
    else if a.x == b.x && a.width == b.width && b.y + b.height == a.y then
      Some(Rect(a.x, b.y, a.width, a.height + b.height))
    else if a.y == b.y && a.height == b.height && a.x + a.width == b.x then
      Some(Rect(a.x, a.y, a.width + b.width, a.height))
    else if a.y == b.y && a.height == b.height && b.x + b.width == a.x then
      Some(Rect(b.x, b.y, a.width + b.width, a.height))
    else
      None
  }

  predicate Mergeable(a: Rect, b: Rect) {
    Merged(a, b).Some?
  }

  lemma MergeableSymmetric(a: Rect, b: Rect)
    ensures Mergeable(a, b) <==> Mergeable(b, a)
  {
  }

  /** No two distinct entries of rs can be merged. */
  predicate NoneMergeable(rs: seq<Rect>) {
    forall i, j :: 0 <= i < |rs| && 0 <= j < |rs| && i != j ==> !Mergeable(rs[i], rs[j])
  }

  /** Lines 96-106: the popped `rect` absorbs, left to right, every remaining
      rectangle it can be merged with; `remaining` is what is left of `rest`. */
  method Absorb(rect: Rect, rest: seq<Rect>) returns (acc: Rect, remaining: seq<Rect>, mergedAny: bool)
    ensures acc.Area() + TotalArea(remaining) == rect.Area() + TotalArea(rest)
    ensures |remaining| <= |rest|
    ensures mergedAny ==> |remaining| < |rest|
    ensures mergedAny ==> exists k :: 0 <= k < |rest| && Mergeable(rect, rest[k])
    ensures !mergedAny ==> acc == rect && remaining == rest
    ensures !mergedAny ==> forall k :: 0 <= k < |rest| ==> !Mergeable(rect, rest[k])
  {
    acc := rect;
    remaining := rest;
    mergedAny := false;
    var i := 0;
    while i < |remaining|
      invariant 0 <= i <= |remaining| <= |rest|
      invariant acc.Area() + TotalArea(remaining) == rect.Area() + TotalArea(rest)
      invariant mergedAny ==> |remaining| < |rest|
      invariant mergedAny ==> exists k :: 0 <= k < |rest| && Mergeable(rect, rest[k])
      invariant !mergedAny ==> acc == rect && remaining == rest
      invariant !mergedAny ==> forall k :: 0 <= k < i ==> !Mergeable(rect, rest[k])
      decreases |remaining| - i
    {
      var result := Merged(acc, remaining[i]);
      if result.Some? {
        if !mergedAny {
          assert Mergeable(rect, rest[i]);
        }
        TotalAreaRemove(remaining, i);
        acc := result.value;
        remaining := remaining[..i] + remaining[i + 1..];
        mergedAny := true;
      } else {
        i := i + 1;
      }
    }
  }

  /** Every entry before index n can be merged with no later entry. */
  predicate SettledBefore(rs: seq<Rect>, n: int) {
    forall i, j :: 0 <= i < n && i < j < |rs| ==> !Mergeable(rs[i], rs[j])
  }

  /** One pass of the outer loop (lines 93-113). A pass that merges nothing
      returns its input unchanged, and that happens exactly when no two
      input rectangles can be merged. */
  method MergePass(rects: seq<Rect>) returns (next: seq<Rect>, changed: bool)
    ensures TotalArea(next) == TotalArea(rects)
    ensures |next| <= |rects|
    ensures changed ==> |next| < |rects|
    ensures !changed ==> next == rects
    ensures !changed <==> NoneMergeable(rects)
  {
    changed := false;
    var pending := rects;
    var done: seq<Rect> := [];
    while |pending| > 0
      invariant TotalArea(done) + TotalArea(pending) == TotalArea(rects)
      invariant |done| + |pending| <= |rects|
      invariant changed ==> |done| + |pending| < |rects|
      invariant !changed ==> done + pending == rects
      invariant !changed ==> SettledBefore(rects, |done|)
      invariant changed ==> !NoneMergeable(rects)
      decreases |pending|
    {
      var rect := pending[0];
      assert TotalArea(pending) == rect.Area() + TotalArea(pending[1..]);
      var acc, remaining, mergedAny := Absorb(rect, pending[1..]);
      if mergedAny {
        if !changed {
          WitnessMerge(rects, done, pending, rect);
        }
        TotalAreaConcat(remaining, [acc]);
        pending := remaining + [acc];
        changed := true;
      } else {
        if !changed {
          SettleOne(rects, done, pending);
        }
        TotalAreaConcat(done, [rect]);
        done := done + [rect];
        pending := pending[1..];
      }
    }
    next := done;
    if !changed {
      SettledIsNoneMergeable(rects);
    }
  }

  /** Keeping the popped rectangle, which merges with no later one, extends
      the settled prefix by one. */
  lemma SettleOne(rects: seq<Rect>, done: seq<Rect>, pending: seq<Rect>)
    requires |pending| > 0 && done + pending == rects
    requires SettledBefore(rects, |done|)
    requires forall k :: 0 <= k < |pending[1..]| ==> !Mergeable(pending[0], pending[1..][k])
    ensures (done + [pending[0]]) + pending[1..] == rects
    ensures SettledBefore(rects, |done| + 1)
  {
    var n := |done|;
    forall i, j | 0 <= i < n + 1 && i < j < |rects|
      ensures !Mergeable(rects[i], rects[j])
    {
      if i == n {
        assert rects[i] == pending[0];
        assert rects[j] == pending[1..][j - n - 1];
      }
    }
  }

  lemma SettledIsNoneMergeable(rects: seq<Rect>)
    requires SettledBefore(rects, |rects|)
    ensures NoneMergeable(rects)
  {
    forall i, j | 0 <= i < |rects| && 0 <= j < |rects| && i != j
      ensures !Mergeable(rects[i], rects[j])
    {
      if j < i {
        MergeableSymmetric(rects[i], rects[j]);
      }
    }
  }

  /** When the first rectangle merged in a pass was popped, every earlier
      one had been kept, so the rectangle it merged with is a later input
      entry: the input held a mergeable pair. */
  lemma WitnessMerge(rects: seq<Rect>, done: seq<Rect>, pending: seq<Rect>, rect: Rect)
    requires |pending| > 0 && rect == pending[0] && done + pending == rects
    requires exists k :: 0 <= k < |pending[1..]| && Mergeable(rect, pending[1..][k])
    ensures !NoneMergeable(rects)
  {
    var k :| 0 <= k < |pending[1..]| && Mergeable(rect, pending[1..][k]);
    assert rects[|done|] == rect;
    assert rects[|done| + 1 + k] == pending[1..][k];
  }

  /** `merge_rectangles(rectangles)`: repeat passes until one merges nothing.
      The total area is kept, the count never grows, no two output
      rectangles can be merged, and an input without a mergeable pair is
      returned as it is. The loop ends because each pass that merges
      shortens the list. */
  method MergeRectangles(rectangles: seq<Rect>) returns (out: seq<Rect>)
    ensures TotalArea(out) == TotalArea(rectangles)
    ensures |out| <= |rectangles|
    ensures NoneMergeable(out)
    ensures NoneMergeable(rectangles) ==> out == rectangles
  {
    var rects := rectangles;
    var changed := true;
    while changed
      invariant TotalArea(rects) == TotalArea(rectangles)
      invariant |rects| <= |rectangles|
      invariant !changed ==> NoneMergeable(rects)
      invariant NoneMergeable(rectangles) ==> rects == rectangles
      decreases |rects| + (if changed then 1 else 0)
    {
      rects, changed := MergePass(rects);
    }
    out := rects;
  }
}

=== FILE: scene2d.dfy ===
/** `Scene` of main.py: the 2-D prototype's frame loop. In construction mode
    it places a platform ahead of the ball on every note frame; in
    validation mode it checks that platforms are hit exactly on the frames
    they recorded. A dead-zone camera follows the ball. */
module Scene2D {
  import opened Options
  import Bounce
  import opened Geometry
  import opened Engine2D

  const ScreenWidth: int := 1088
  const ScreenHeight: int := 1920
  const BallStartX: int := ScreenWidth / 2
  const BallStartY: int := ScreenHeight / 2
  const BallSize: int := 100
  const BallSpeed: int := 15

  /** A `KeyError` for a note frame without an orientation, and the two
      `BadSimulaiton` failures of validation. */
  datatype SimError = MissingOrientation(frame: int) | MissedBounce(frame: int) | MistimedBounce(frame: int)

  datatype Scene = Scene(
    screenWidth: int, screenHeight: int,
    ball: Ball,
    platforms: seq<Platform>,
    bounceFrames: set<int>,
    frameCount: int,
    offsetX: real, offsetY: real,
    platformsSet: bool,
    orientations: map<int, bool>,
    expectations: set<int>)

  /** A ball as the script creates it: both speeds equal `speed`. */
  function NewBall(x: int, y: int, size: int, speed: int): (b: Ball)
    ensures b.Box() == Rect(x as real, y as real, size as real, size as real)
    ensures b.vx == b.vy == speed as real
  {
    Ball(x as real, y as real, size, speed as real, speed as real)
  }

  /** `Scene(...)`: no platforms, frame 0, camera at the origin. */
  function NewScene(width: int, height: int, ball: Ball, bounceFrames: seq<int>, orientations: map<int, bool>): (s: Scene)
    ensures s.ball == ball && s.orientations == orientations
    ensures s.screenWidth == width && s.screenHeight == height
    ensures s.frameCount == 0 && s.platforms == [] && !s.platformsSet && s.expectations == {}
    ensures forall f :: f in s.bounceFrames <==> f in bounceFrames
    ensures s.offsetX == 0.0 && s.offsetY == 0.0
  {
    Scene(width, height, ball, [], set f | f in bounceFrames, 0, 0.0, 0.0, false, orientations, {})
  }


  /** `Scene.set_platforms(platforms)`: switches to validation mode. */
  function SetPlatforms(s: Scene, platforms: seq<Platform>): (r: Scene)
    ensures r.platformsSet && r.platforms == platforms
    ensures forall f :: f in r.expectations <==> exists k :: 0 <= k < |platforms| && platforms[k].expected == Some(f)
    ensures r.ball == s.ball && r.frameCount == s.frameCount
  {
    var recorded := seq(|platforms|, k requires 0 <= k < |platforms| => platforms[k].expected);
    assert forall k :: 0 <= k < |platforms| ==> recorded[k] == platforms[k].expected;
    s.(platformsSet := true, expectations := Bounce.Expectations(recorded), platforms := platforms)
  }

  /** The ball at `pos` lies in the middle band of a screen whose camera
      sits at `offset`. */
  predicate InBand(pos: real, offset: real, screen: real) {
    screen * 0.4 <= pos - offset <= screen - screen * 0.4
  }

  /** One axis of `Scene.adjust_camera()`: the offset moves only when the
      ball leaves the middle band that spans 40% to 60% of the screen. */
  function FollowAxis(pos: real, offset: real, screen: real): (r: real)
    ensures screen >= 0.0 ==> InBand(pos, r, screen)
    ensures InBand(pos, offset, screen) ==> r == offset
    // the camera moves no further than it must
    ensures forall o :: InBand(pos, o, screen) ==> Abs(r - offset) <= Abs(o - offset)
  {
    var edge := screen * 0.4;
    if pos - offset < edge then pos - edge
    else if pos - offset > screen - edge then pos - (screen - edge)
    else offset
  }

  /** `Scene.adjust_camera()`. */
  function AdjustCamera(s: Scene): (r: Scene)
    ensures r == s.(offsetX := r.offsetX, offsetY := r.offsetY)
    ensures s.screenWidth >= 0 ==> s.screenWidth as real * 0.4 <= s.ball.x - r.offsetX <= s.screenWidth as real * 0.6
    ensures s.screenHeight >= 0 ==> s.screenHeight as real * 0.4 <= s.ball.y - r.offsetY <= s.screenHeight as real * 0.6
  {
    s.(offsetX := FollowAxis(s.ball.x, s.offsetX, s.screenWidth as real),
       offsetY := FollowAxis(s.ball.y, s.offsetY, s.screenHeight as real))
  }

  /** The platform placed on a note frame: half a ball wide and two balls
      tall, turned when `turned` holds, shifted from the ball's predicted
      position by half of its height horizontally and half of its width
      vertically, in the direction of travel. */
  function NewPlatformFor(b: Ball, turned: bool): (p: Platform)
    ensures p.expected.None?
    ensures !turned ==> p.rect.width == (b.size / 2) as real && p.rect.height == (b.size * 2) as real
    ensures turned ==> p.rect.width == (b.size * 2) as real && p.rect.height == (b.size / 2) as real
    ensures var (fx, fy) := PredictPosition(b, 1);
      && p.rect.x == (if b.vx > 0.0 then fx + p.rect.height / 2.0 else fx - p.rect.height / 2.0)
      && p.rect.y == (if b.vy > 0.0 then fy + p.rect.width / 2.0 else fy - p.rect.width / 2.0)
  {
    var (fx, fy) := PredictPosition(b, 1);
    var w0, h0 := b.size / 2, b.size * 2;
    var w, h := if turned then h0 else w0, if turned then w0 else h0;
    var x := if b.vx > 0.0 then fx + h as real / 2.0 else fx - h as real / 2.0;
    var y := if b.vy > 0.0 then fy + w as real / 2.0 else fy - w as real / 2.0;
    Platform(Rect(x, y, w as real, h as real), None)
  }

  /** Where an upright platform sits relative to the ball one frame ahead:
      flush against the ball's right side when it travels right, but a gap
      of half a ball (rounded up) from its left side when it travels left,
      because the shift is half the platform's height, not its width. */
  lemma UprightPlacementGap(b: Ball)
    requires b.size >= 0
    ensures var p := NewPlatformFor(b, false).rect;
      var (fx, _) := PredictPosition(b, 1);
      && (b.vx > 0.0 ==> p.x == fx + b.size as real)
      && (b.vx <= 0.0 ==> fx - p.Right() == (b.size - b.size / 2) as real)
  {
  }

  /** Result of one frame: the scene as the frame leaves it, and the
      exception it raised, if any. */
  datatype Step = Step(scene: Scene, error: Option<SimError>)

  /** The scene with the construction-mode platform added, or the missing
      orientation. */
  function Stage(s: Scene): (r: Result<Scene, SimError>)
    ensures r.Err? <==> !s.platformsSet && s.frameCount + 1 in s.bounceFrames && s.frameCount + 1 !in s.orientations
    ensures r.Err? ==> r.error == MissingOrientation(s.frameCount + 1)
    ensures r.Ok? ==> r.value == s.(platforms := r.value.platforms)
    ensures r.Ok? && !s.platformsSet && s.frameCount + 1 in s.bounceFrames ==>
      r.value.platforms == s.platforms + [NewPlatformFor(s.ball, s.orientations[s.frameCount + 1])]
    ensures r.Ok? && !(!s.platformsSet && s.frameCount + 1 in s.bounceFrames) ==> r.value.platforms == s.platforms
  {
    var frame := s.frameCount + 1;
    if !s.platformsSet && frame in s.bounceFrames then
      if frame !in s.orientations then Err(MissingOrientation(frame))
      else Ok(s.(platforms := s.platforms + [NewPlatformFor(s.ball, s.orientations[frame])]))
    else Ok(s)
  }

  /** The validation failure of a frame given the ball's move, if any: no
      hit on an expected frame, or a hit on a platform that had recorded
      another non-zero frame. */
  function Check(expectations: set<int>, before: seq<Platform>, hit: Option<nat>, frame: int): (e: Option<SimError>)
    requires hit.Some? ==> hit.value < |before|
    ensures e == Some(MissedBounce(frame)) <==> hit.None? && frame in expectations
    ensures e == Some(MistimedBounce(frame)) <==>
      hit.Some? && before[hit.value].expected.Some? && before[hit.value].expected.value != 0
      && before[hit.value].expected.value != frame
    ensures e.None? || e == Some(MissedBounce(frame)) || e == Some(MistimedBounce(frame))
  {
    match hit
    case None => if frame in expectations then Some(MissedBounce(frame)) else None
    case Some(k) =>
      var recorded := SetExpectedBounceFrame(before[k], frame).expected;
      if recorded != Some(frame) then Some(MistimedBounce(frame)) else None
  }

  /** Validation fails on the next frame: the ball hits nothing although a
      platform expects this frame, or the first platform it hits had
      recorded another non-zero frame. Stated on the state before the
      frame. */
  predicate Fails(s: Scene) {
    var frame := s.frameCount + 1;
    match FirstOverlap(NextBox(s.ball), s.platforms, 0)
    case None => frame in s.expectations
    case Some(k) => s.platforms[k].expected.Some? && s.platforms[k].expected.value != 0
                    && s.platforms[k].expected.value != frame
  }

  /** `Scene.update()`. A raised exception leaves the scene as it was at the
      raise: a missing orientation after the frame counter only, a
      validation failure after the move but before the camera follows. */
  function Update(s: Scene): (r: Step)
    ensures r.scene.frameCount == s.frameCount + 1
    ensures r.scene.ball.size == s.ball.size
    ensures r.scene.platformsSet == s.platformsSet && r.scene.bounceFrames == s.bounceFrames
    ensures r.scene.orientations == s.orientations && r.scene.expectations == s.expectations
    // construction never fails except on a missing orientation
    ensures !s.platformsSet ==> (r.error.Some? <==> s.frameCount + 1 in s.bounceFrames && s.frameCount + 1 !in s.orientations)
    ensures s.platformsSet ==> (r.error.Some? <==> Fails(s))
    ensures r.error.Some? && r.error.value.MissingOrientation? ==> r.scene == s.(frameCount := s.frameCount + 1)
    ensures r.error.Some? ==> r.error.value.frame == s.frameCount + 1
    ensures r.error.None? ==> r.scene == AdjustCamera(r.scene.(offsetX := s.offsetX, offsetY := s.offsetY))
    // once staged, the ball ends where `Move` puts it against the staged platforms
    ensures Stage(s).Ok? ==> r.scene.ball == Move(s.ball, Stage(s).value.platforms, s.frameCount + 1).ball
    // and the platforms are the staged ones with the hit one's frame recorded
    ensures Stage(s).Ok? ==> r.scene.platforms == Move(s.ball, Stage(s).value.platforms, s.frameCount + 1).platforms
  {
    var frame := s.frameCount + 1;
    match Stage(s)
    case Err(e) => Step(s.(frameCount := frame), Some(e))
    case Ok(staged) =>
      var mv := Move(staged.ball, staged.platforms, frame);
      var moved := staged.(frameCount := frame, ball := mv.ball, platforms := mv.platforms);
      var e := if s.platformsSet then Check(s.expectations, staged.platforms, mv.hit, frame) else None;
      if e.Some? then Step(moved, e) else Step(AdjustCamera(moved), None)
  }

  /** `n` frames of `step` in a row, stopping at the first exception. */
  function RunWith(step: Scene -> Step, s: Scene, n: nat): Step
    decreases n
  {
    if n == 0 then Step(s, None)
    else
      var r := step(s);
      if r.error.Some? then r else RunWith(step, r.scene, n - 1)
  }

  /** A step that advances the frame by one and keeps the mode does so over
      a run: the run ends after between one and n frames, after n exactly
      when no exception stops it. */
  lemma {:induction false} RunWithFrames(step: Scene -> Step, s: Scene, n: nat)
    requires forall x :: step(x).scene.frameCount == x.frameCount + 1 && step(x).scene.platformsSet == x.platformsSet
    ensures var r := RunWith(step, s, n);
      && (s.frameCount < r.scene.frameCount <= s.frameCount + n || (n == 0 && r.scene == s))
      && (r.error.None? ==> r.scene.frameCount == s.frameCount + n)
      && r.scene.platformsSet == s.platformsSet
    decreases n
  {
    if n > 0 && step(s).error.None? {
      RunWithFrames(step, step(s).scene, n - 1);
    }
  }

  /** A property every step keeps holds at the end of every run. */
  lemma {:induction false} RunWithKeeps(step: Scene -> Step, keep: Scene -> bool, s: Scene, n: nat)
    requires keep(s)
    requires forall x :: keep(x) ==> keep(step(x).scene)
    ensures keep(RunWith(step, s, n).scene)
    decreases n
  {
    if n > 0 && step(s).error.None? {
      RunWithKeeps(step, keep, step(s).scene, n - 1);
    }
  }

  /** A step that, from states satisfying `inv`, never fails, keeps `inv`,
      advances the frame by one and adds a platform exactly on a frame in
      `notes` runs without an exception and adds one platform per note
      frame it passes. */
  lemma {:induction false} RunWithCounts(step: Scene -> Step, inv: Scene -> bool, notes: set<int>, s: Scene, n: nat)
    requires inv(s)
    requires forall x: Scene {:trigger step(x)} :: inv(x) ==>
      && step(x).error.None? && inv(step(x).scene)
      && step(x).scene.frameCount == x.frameCount + 1
      && |step(x).scene.platforms| == |x.platforms| + (if x.frameCount + 1 in notes then 1 else 0)
    ensures RunWith(step, s, n).error.None?
    ensures |RunWith(step, s, n).scene.platforms| == |s.platforms| + NotesAhead(notes, s.frameCount, n)
    decreases n
  {
    if n > 0 {
      var r := step(s);
      RunWithCounts(step, inv, notes, r.scene, n - 1);
      assert RunWith(step, s, n) == RunWith(step, r.scene, n - 1);
    }
  }

  /** `n` frames in a row, stopping at the first exception, as the
      validation loop does. */
  function Run(s: Scene, n: nat): (r: Step)
    ensures s.frameCount < r.scene.frameCount <= s.frameCount + n || (n == 0 && r.scene == s)
    ensures r.error.None? ==> r.scene.frameCount == s.frameCount + n
    ensures r.scene.platformsSet == s.platformsSet
  {
    RunWithFrames(Update, s, n);
    RunWith(Update, s, n)
  }

  /** A frame keeps the ball's speed: a bounce only changes the sign of one
      component. */
  lemma UpdateKeepsSpeed(s: Scene)
    ensures var b := Update(s).scene.ball;
      Abs(b.vx) == Abs(s.ball.vx) && Abs(b.vy) == Abs(s.ball.vy)
  {
    var frame := s.frameCount + 1;
    match Stage(s)
    case Err(_) =>
    case Ok(staged) =>
      MoveKeepsSpeed(staged.ball, staged.platforms, frame);
  }

  /** However many frames run, the ball's speed keeps its magnitude. */
  lemma RunKeepsSpeed(s: Scene, n: nat)
    ensures var b := Run(s, n).scene.ball;
      Abs(b.vx) == Abs(s.ball.vx) && Abs(b.vy) == Abs(s.ball.vy) && b.size == s.ball.size
  {
    var keep := (x: Scene) =>
      Abs(x.ball.vx) == Abs(s.ball.vx) && Abs(x.ball.vy) == Abs(s.ball.vy) && x.ball.size == s.ball.size;
    forall x | keep(x)
      ensures keep(Update(x).scene)
    {
      UpdateKeepsSpeed(x);
    }
    RunWithKeeps(Update, keep, s, n);
  }

  /** The number of note frames among the `n` frames after `from`. */
  function NotesAhead(notes: set<int>, from: int, n: nat): (c: nat)
    ensures c <= n
    decreases n
  {
    if n == 0 then 0
    else (if from + 1 in notes then 1 else 0) + NotesAhead(notes, from + 1, n - 1)
  }

  /** Construction mode with an orientation for every note frame never
      fails and adds one platform per note frame it passes. */
  lemma RunConstruction(s: Scene, n: nat)
    requires !s.platformsSet
    requires forall f :: f in s.bounceFrames ==> f in s.orientations
    ensures Run(s, n).error.None?
    ensures |Run(s, n).scene.platforms| == |s.platforms| + NotesAhead(s.bounceFrames, s.frameCount, n)
  {
    var inv := (x: Scene) => !x.platformsSet && x.bounceFrames == s.bounceFrames && x.orientations == s.orientations;
    ConstructionSteps(Update, inv, s.bounceFrames, s.orientations);
    RunWithCounts(Update, inv, s.bounceFrames, s, n);
  }

  /** The construction pass of main.py's script: the script's screen and
      starting ball, a random orientation drawn for every note frame, run
      for any number of frames, never raises and places one platform per
      note frame it passes, starting from no platforms at frame zero. */
  lemma ScriptConstruction(notes: seq<int>, choices: map<int, bool>, n: nat)
    requires forall f :: f in notes ==> f in choices
    ensures var s := NewScene(ScreenWidth, ScreenHeight, NewBall(BallStartX, BallStartY, BallSize, BallSpeed), notes, choices);
      && Run(s, n).error.None?
      && Run(s, n).scene.frameCount == n
      && |Run(s, n).scene.platforms| == NotesAhead(s.bounceFrames, 0, n)
  {
    var s := NewScene(ScreenWidth, ScreenHeight, NewBall(BallStartX, BallStartY, BallSize, BallSpeed), notes, choices);
    RunConstruction(s, n);
  }

  /** Every construction frame with an orientation for every note frame
      keeps the mode and its inputs and adds a platform exactly on a note
      frame. */
  lemma ConstructionSteps(step: Scene -> Step, inv: Scene -> bool, notes: set<int>, orientations: map<int, bool>)
    requires forall x: Scene :: step(x) == Update(x)
    requires forall x: Scene :: inv(x) == (!x.platformsSet && x.bounceFrames == notes && x.orientations == orientations)
    requires forall f :: f in notes ==> f in orientations
    ensures forall x: Scene {:trigger step(x)} :: inv(x) ==>
      && step(x).error.None? && inv(step(x).scene)
      && step(x).scene.frameCount == x.frameCount + 1
      && |step(x).scene.platforms| == |x.platforms| + (if x.frameCount + 1 in notes then 1 else 0)
  {
    forall x: Scene | inv(x)
      ensures step(x).error.None? && inv(step(x).scene)
      ensures |step(x).scene.platforms| == |x.platforms| + (if x.frameCount + 1 in notes then 1 else 0)
    {
      UpdateConstructionCount(x);
    }
  }

  /** In construction mode a frame adds a platform exactly on a note frame. */
  lemma UpdateConstructionCount(s: Scene)
    requires !s.platformsSet
    requires forall f :: f in s.bounceFrames ==> f in s.orientations
    ensures Update(s).error.None?
    ensures |Update(s).scene.platforms| == |s.platforms| + (if s.frameCount + 1 in s.bounceFrames then 1 else 0)
  {
    var staged := Stage(s).value;
    assert |Move(staged.ball, staged.platforms, s.frameCount + 1).platforms| == |staged.platforms|;
  }

  /** A frame that gets past staging keeps the rectangle of every platform
      already placed and any non-zero frame one records, and on a
      construction note frame appends the platform placed ahead of the
      ball. */
  lemma UpdatePlatforms(s: Scene)
    requires Stage(s).Ok?
    ensures var ps := Update(s).scene.platforms;
      |ps| == |s.platforms| + (if !s.platformsSet && s.frameCount + 1 in s.bounceFrames then 1 else 0)
    ensures var ps := Update(s).scene.platforms;
      forall k :: 0 <= k < |s.platforms| ==> ps[k].rect == s.platforms[k].rect
    ensures var ps := Update(s).scene.platforms;
      forall k :: 0 <= k < |s.platforms| && s.platforms[k].expected.Some? && s.platforms[k].expected.value != 0 ==>
        ps[k].expected == s.platforms[k].expected
    ensures !s.platformsSet && s.frameCount + 1 in s.bounceFrames ==>
      Update(s).scene.platforms[|s.platforms|].rect == NewPlatformFor(s.ball, s.orientations[s.frameCount + 1]).rect
  {
    var staged := Stage(s).value.platforms;
    var mv := Move(s.ball, staged, s.frameCount + 1);
    assert Update(s).scene.platforms == mv.platforms;
    assert forall k :: 0 <= k < |s.platforms| ==> staged[k] == s.platforms[k];
  }

  /** The camera keeps the ball inside the middle band after every frame
      that completes. */
  lemma UpdateKeepsBallCentred(s: Scene)
    requires s.screenWidth >= 0 && s.screenHeight >= 0
    ensures var r := Update(s);
      r.error.None? ==>
        && s.screenWidth as real * 0.4 <= r.scene.ball.x - r.scene.offsetX <= s.screenWidth as real * 0.6
        && s.screenHeight as real * 0.4 <= r.scene.ball.y - r.scene.offsetY <= s.screenHeight as real * 0.6
  {
  }
}

=== FILE: scene3d.dfy ===
/** `Scene` of main_3d.py: the frame driver. In construction mode (no
    platforms handed in) it places a platform one predicted step ahead of the
    ball on every target frame; in validation mode it replays given
    platforms and fails on a missed or a mistimed bounce. */
module Scene3D {
  import opened Options
  import Bounce
  import opened Geometry
  import opened Things3D
  import opened Engine3D
  import opened RectMerge
  import Animation

  datatype SimError = MissedBounce(frame: int) | MistimedBounce(frame: int)

  /** The scene's state. `expectations` is the key set of the source's
      `_platform_expectations` dictionary: the recorded bounce frames of the
      platforms handed to `set_platforms`. An absent `bounce_frames` or
      `platform_orientations` argument is the empty set or map. */
  datatype Scene = Scene(
    screenWidth: real, screenHeight: real,
    ball: Ball,
    platforms: seq<Platform>,
    bounceFrames: set<int>,
    frameCount: int,
    offsetX: real, offsetY: real,
    platformsSet: bool,
    orientations: map<int, bool>,
    expectations: set<int>,
    walls: seq<Wall>,
    carved: bool)

  function NewScene(width: real, height: real, ball: Ball, bounceFrames: set<int>, orientations: map<int, bool>): (s: Scene)
    ensures s.ball == ball && s.bounceFrames == bounceFrames && s.orientations == orientations
    ensures s.screenWidth == width && s.screenHeight == height
    ensures s.frameCount == 0 && |s.platforms| == 0 && |s.walls| == 0
    ensures s.offsetX == 0.0 && s.offsetY == 0.0
    ensures !s.platformsSet && !s.carved && s.expectations == {}
  {
    Scene(width, height, ball, [], bounceFrames, 0, 0.0, 0.0, false, orientations, {}, [], false)
  }


  /** `Scene.set_platforms`: switch to validation mode. */
  function SetPlatforms(s: Scene, platforms: seq<Platform>): (r: Scene)
    ensures r.platformsSet && r.platforms == platforms
    ensures forall f :: f in r.expectations <==> exists k :: 0 <= k < |platforms| && platforms[k].expected == Some(f)
    ensures r.ball == s.ball && r.frameCount == s.frameCount && r.walls == s.walls
  {
    var recorded := seq(|platforms|, k requires 0 <= k < |platforms| => platforms[k].expected);
    assert forall k :: 0 <= k < |platforms| ==> recorded[k] == platforms[k].expected;
    s.(platformsSet := true, expectations := Bounce.Expectations(recorded), platforms := platforms)
  }

  function Rects(walls: seq<Wall>): (r: seq<Rect>)
    ensures |r| == |walls| && forall i :: 0 <= i < |walls| ==> r[i] == walls[i].rect
  {
    seq(|walls|, i requires 0 <= i < |walls| => walls[i].rect)
  }

  /** `Scene.set_walls(walls, carved)`: carved walls are merged into fewer,
      larger visible walls covering the same total area. */
  method SetWalls(s: Scene, walls: seq<Wall>, carved: bool) returns (r: Scene)
    ensures r.carved == carved
    ensures !carved ==> r.walls == walls
    ensures carved ==> |r.walls| <= |walls| && TotalArea(Rects(r.walls)) == TotalArea(Rects(walls))
    ensures carved ==> NoneMergeable(Rects(r.walls)) && forall i :: 0 <= i < |r.walls| ==> r.walls[i].visible
    ensures r.platforms == s.platforms && r.ball == s.ball && r.frameCount == s.frameCount
  {
    if !carved {
      return s.(carved := carved, walls := walls);
    }
    var merged := MergeRectangles(Rects(walls));
    var ws := NewWalls(merged);
    assert Rects(ws) == merged;
    r := s.(carved := carved, walls := ws);
  }

  /** The `visible_bounds` tuple: three screens either side of the offset. */
  function VisibleBounds(s: Scene): (b: Box)
    ensures b.right - b.left == 6.0 * s.screenWidth && b.bottom - b.top == 6.0 * s.screenHeight
    ensures b.left + b.right == 2.0 * s.offsetX && b.top + b.bottom == 2.0 * s.offsetY
  {
    Box(s.offsetX - 3.0 * s.screenWidth, s.offsetX + 3.0 * s.screenWidth,
        s.offsetY - 3.0 * s.screenHeight, s.offsetY + 3.0 * s.screenHeight)
  }

  /** `Scene.adjust_camera` without the camera rotation: the offset moves a
      fixed fraction `Alpha` of the way to the one that centres the ball (both
      branches of the source's desired offset come to the same value). */
  function AdjustCamera(s: Scene): (r: (real, real))
    ensures r.0 - (s.ball.x - s.screenWidth / 2.0) == (1.0 - Alpha) * (s.offsetX - (s.ball.x - s.screenWidth / 2.0))
    ensures r.1 - (s.ball.y - s.screenHeight / 2.0) == (1.0 - Alpha) * (s.offsetY - (s.ball.y - s.screenHeight / 2.0))
  {
    var edgeX := s.screenWidth * 0.5;
    var edgeY := s.screenHeight * 0.5;
    var desiredX := if s.ball.vx < 0.0 then s.ball.x - edgeX else s.ball.x - (s.screenWidth - edgeX);
    var desiredY := if s.ball.vy < 0.0 then s.ball.y - edgeY else s.ball.y - (s.screenHeight - edgeY);
    (Animation.Lerp(s.offsetX, desiredX, Alpha), Animation.Lerp(s.offsetY, desiredY, Alpha))
  }

  /** The offset that centres the ball on the screen, where the camera is
      heading. */
  function CentredOffset(s: Scene): (real, real) {
    (s.ball.x - s.screenWidth / 2.0, s.ball.y - s.screenHeight / 2.0)
  }

  /** One adjustment moves each offset toward the centring one without
      overshooting it, and leaves a centred camera where it is. */
  lemma AdjustCameraApproaches(s: Scene)
    ensures var r, c := AdjustCamera(s), CentredOffset(s);
      && (s.offsetX < c.0 ==> s.offsetX < r.0 < c.0)
      && (s.offsetX > c.0 ==> c.0 < r.0 < s.offsetX)
      && (s.offsetX == c.0 ==> r.0 == c.0)
      && (s.offsetY < c.1 ==> s.offsetY < r.1 < c.1)
      && (s.offsetY > c.1 ==> c.1 < r.1 < s.offsetY)
      && (s.offsetY == c.1 ==> r.1 == c.1)
  {
  }

  /** The camera after n adjustments while the ball holds still. */
  function SettleCamera(s: Scene, n: nat): Scene
    decreases n
  {
    if n == 0 then s
    else
      var r := AdjustCamera(s);
      SettleCamera(s.(offsetX := r.0, offsetY := r.1), n - 1)
  }

  /** With the ball holding still, every later offset lies between the
      starting one and the centring one: the camera closes in on the ball
      without ever overshooting, and a centred camera stays put. */
  lemma {:induction false} SettleCameraBetween(s: Scene, n: nat)
    ensures var c, u := CentredOffset(s), SettleCamera(s, n);
      && (s.offsetX <= c.0 ==> s.offsetX <= u.offsetX <= c.0)
      && (c.0 <= s.offsetX ==> c.0 <= u.offsetX <= s.offsetX)
      && (s.offsetY <= c.1 ==> s.offsetY <= u.offsetY <= c.1)
      && (c.1 <= s.offsetY ==> c.1 <= u.offsetY <= s.offsetY)
    decreases n
  {
    if n > 0 {
      var r := AdjustCamera(s);
      var t := s.(offsetX := r.0, offsetY := r.1);
      AdjustCameraApproaches(s);
      SettleCameraBetween(t, n - 1);
      assert CentredOffset(t) == CentredOffset(s);
      assert SettleCamera(s, n) == SettleCamera(t, n - 1);
    }
  }

  /** The platform placed on a target frame, one predicted step ahead of the
      ball: long side across the axis it will flip (`orientation` true: a
      horizontal platform that flips the y speed), on the side the ball is
      travelling toward and clear of the ball's predicted box. */
  function NewPlatformFor(ball: Ball, orientation: bool, index: int): (p: Platform)
    ensures p.index == index && p.orientation == orientation && p.expected.None?
    ensures orientation ==> p.rect.width == PlatformHeight && p.rect.height == PlatformWidth
    ensures !orientation ==> p.rect.width == PlatformWidth && p.rect.height == PlatformHeight
    ensures var next := PredictPosition(ball, 1);
      && (orientation && ball.vy < 0.0 ==> p.rect.Bottom() < next.y)
      && (orientation && ball.vy >= 0.0 && ball.size < PlatformHeight ==> next.y + ball.size < p.rect.y)
      && (!orientation && ball.vx < 0.0 ==> p.rect.Right() < next.x)
      && (!orientation && ball.vx >= 0.0 && ball.size < PlatformHeight ==> next.x + ball.size < p.rect.x)
    // the exact corner: a horizontal platform is offset half its width along x
    // and twice its height along y; an upright one twice its width along x and
    // half its height along y, each toward the direction of travel
    ensures var next := PredictPosition(ball, 1);
      && (orientation ==> p.rect.x == (if ball.vx > 0.0 then next.x + p.rect.width / 2.0 else next.x - p.rect.width / 2.0))
      && (orientation ==> p.rect.y == (if ball.vy < 0.0 then next.y - p.rect.height * 2.0 else next.y + p.rect.height * 2.0))
      && (!orientation ==> p.rect.x == (if ball.vx < 0.0 then next.x - p.rect.width * 2.0 else next.x + p.rect.width * 2.0))
      && (!orientation ==> p.rect.y == (if ball.vy > 0.0 then next.y + p.rect.height / 2.0 else next.y - p.rect.height / 2.0))
  {
    var next := PredictPosition(ball, 1);
    if orientation then
      var w, h := PlatformHeight, PlatformWidth;
      var x := if ball.vx > 0.0 then next.x + w / 2.0 else next.x - w / 2.0;
      var y := if ball.vy < 0.0 then next.y - h * 2.0 else next.y + h * 2.0;
      Platform(Rect(x, y, w, h), orientation, index, None)
    else
      var w, h := PlatformWidth, PlatformHeight;
      var x := if ball.vx < 0.0 then next.x - w * 2.0 else next.x + w * 2.0;
      var y := if ball.vy > 0.0 then next.y + h / 2.0 else next.y - h / 2.0;
      Platform(Rect(x, y, w, h), orientation, index, None)
  }

  /** The platform list the ball moves against on the next frame. */
  function Staged(s: Scene): (ps: seq<Platform>)
    ensures |ps| == |s.platforms| + (if !s.platformsSet && s.frameCount + 1 in s.bounceFrames then 1 else 0)
    ensures ps[..|s.platforms|] == s.platforms
    // on a construction note frame the one new platform is placed ahead of the ball
    ensures !s.platformsSet && s.frameCount + 1 in s.bounceFrames ==>
      ps[|s.platforms|] == NewPlatformFor(s.ball, s.frameCount + 1 in s.orientations && s.orientations[s.frameCount + 1], |s.platforms|)
  {
    var frame := s.frameCount + 1;
    if !s.platformsSet && frame in s.bounceFrames then
      var orientation := if frame in s.orientations then s.orientations[frame] else false;
      s.platforms + [NewPlatformFor(s.ball, orientation, |s.platforms|)]
    else s.platforms
  }

  /** Validation fails on this frame: no platform is hit although one
      expects this frame, or the platform hit already records another
      non-zero frame. Stated on the state before the frame. */
  predicate Fails(s: Scene) {
    var frame := s.frameCount + 1;
    match FirstHit(s.ball.Box(), s.platforms, VisibleBounds(s), 0)
    case None => frame in s.expectations
    case Some(k) => s.platforms[k].expected.Some? && s.platforms[k].expected.value != 0
                    && s.platforms[k].expected.value != frame
  }

  /** Platform k of the list is at index k. */
  predicate Indexed(ps: seq<Platform>) {
    forall k :: 0 <= k < |ps| ==> ps[k].index == k
  }

  /** `Scene.update()` without colour changes. */
  function Update(s: Scene): (r: Result<Scene, SimError>)
    ensures r.Ok? ==> r.value.frameCount == s.frameCount + 1
    ensures !s.platformsSet ==> r.Ok?
    ensures r.Err? <==> s.platformsSet && Fails(s)
    ensures r.Err? ==> r.error.frame == s.frameCount + 1
    // construction: exactly one platform more on a target frame, none otherwise
    ensures r.Ok? ==>
      |r.value.platforms| == |s.platforms| + (if !s.platformsSet && s.frameCount + 1 in s.bounceFrames then 1 else 0)
    // the mode and its inputs never change
    ensures r.Ok? ==>
      && r.value.platformsSet == s.platformsSet && r.value.expectations == s.expectations
      && r.value.bounceFrames == s.bounceFrames && r.value.orientations == s.orientations
      && r.value.carved == s.carved && r.value.screenWidth == s.screenWidth && r.value.screenHeight == s.screenHeight
    // the ball and the walls are where `Move` leaves them against the staged platforms
    ensures r.Ok? ==>
      var mv := Move(s.ball, Staged(s), if s.carved then [] else s.walls, s.frameCount + 1, VisibleBounds(s));
      r.value.ball == mv.ball && r.value.walls == (if s.carved then s.walls else mv.walls)
    // and the camera then follows the moved ball
    ensures r.Ok? ==> (r.value.offsetX, r.value.offsetY) == AdjustCamera(r.value.(offsetX := s.offsetX, offsetY := s.offsetY))
  {
    var frame := s.frameCount + 1;
    var staged := Staged(s);
    var bounds := VisibleBounds(s);
    var mv := Move(s.ball, staged, if s.carved then [] else s.walls, frame, bounds);
    var walls := if s.carved then s.walls else mv.walls;
    var moved := s.(frameCount := frame, ball := mv.ball, platforms := mv.platforms, walls := walls);
    var offsets := AdjustCamera(moved);
    var next := moved.(offsetX := offsets.0, offsetY := offsets.1);
    HitIsFirstHit(s, mv);
    if !s.platformsSet then Ok(next)
    else if mv.hit.None? && frame in s.expectations then Err(MissedBounce(frame))
    else if mv.hit.Some? && Some(frame) != mv.platforms[mv.hit.value].expected then Err(MistimedBounce(frame))
    else Ok(next)
  }

  /** A frame keeps the geometry, orientation and index of every platform
      already placed and any non-zero frame one records; a new platform
      goes at the end with the next index and the orientation chosen for
      the frame (false when none is). */
  lemma UpdatePlatforms(s: Scene)
    requires Update(s).Ok?
    ensures var ps := Update(s).value.platforms;
      forall k :: 0 <= k < |s.platforms| ==>
        && ps[k].rect == s.platforms[k].rect
        && ps[k].orientation == s.platforms[k].orientation
        && ps[k].index == s.platforms[k].index
    ensures var ps := Update(s).value.platforms;
      forall k :: 0 <= k < |s.platforms| && s.platforms[k].expected.Some? && s.platforms[k].expected.value != 0 ==>
        ps[k].expected == s.platforms[k].expected
    ensures var ps := Update(s).value.platforms;
      |ps| > |s.platforms| ==>
        && ps[|s.platforms|].index == |s.platforms|
        && ps[|s.platforms|].orientation == (s.frameCount + 1 in s.orientations && s.orientations[s.frameCount + 1])
        && ps[|s.platforms|].rect == NewPlatformFor(s.ball, s.frameCount + 1 in s.orientations && s.orientations[s.frameCount + 1], |s.platforms|).rect
    ensures Indexed(s.platforms) ==> Indexed(Update(s).value.platforms)
  {
    UpdateMoves(s);
    MovedPlatforms(s, Update(s).value.platforms);
    AddedPlatform(s, Update(s).value.platforms);
  }

  /** The platforms after a frame are those `Move` leaves. */
  lemma UpdateMoves(s: Scene)
    requires Update(s).Ok?
    ensures Update(s).value.platforms
      == Move(s.ball, Staged(s), if s.carved then [] else s.walls, s.frameCount + 1, VisibleBounds(s)).platforms
  {
  }

  lemma MovedPlatforms(s: Scene, ps: seq<Platform>)
    requires ps == Move(s.ball, Staged(s), if s.carved then [] else s.walls, s.frameCount + 1, VisibleBounds(s)).platforms
    ensures forall k :: 0 <= k < |s.platforms| ==>
      && ps[k].rect == s.platforms[k].rect
      && ps[k].orientation == s.platforms[k].orientation
      && ps[k].index == s.platforms[k].index
    ensures forall k :: 0 <= k < |s.platforms| && s.platforms[k].expected.Some? && s.platforms[k].expected.value != 0 ==>
      ps[k].expected == s.platforms[k].expected
  {
    var staged := Staged(s);
    assert forall k :: 0 <= k < |s.platforms| ==> staged[k] == s.platforms[k] by {
      assert staged[..|s.platforms|] == s.platforms;
    }
  }

  lemma AddedPlatform(s: Scene, ps: seq<Platform>)
    requires ps == Move(s.ball, Staged(s), if s.carved then [] else s.walls, s.frameCount + 1, VisibleBounds(s)).platforms
    ensures |ps| <= |s.platforms| + 1
    ensures |ps| > |s.platforms| ==>
      && ps[|s.platforms|].index == |s.platforms|
      && ps[|s.platforms|].orientation == (s.frameCount + 1 in s.orientations && s.orientations[s.frameCount + 1])
      && ps[|s.platforms|].rect == NewPlatformFor(s.ball, s.frameCount + 1 in s.orientations && s.orientations[s.frameCount + 1], |s.platforms|).rect
  {
  }

  /** In validation mode the ball moves against the scene's own platforms,
      so the hit `Move` reports is the first hit on them. */
  lemma HitIsFirstHit(s: Scene, mv: MoveResult)
    requires mv == Move(s.ball, Staged(s), if s.carved then [] else s.walls, s.frameCount + 1, VisibleBounds(s))
    ensures s.platformsSet ==> mv.hit == FirstHit(s.ball.Box(), s.platforms, VisibleBounds(s), 0)
  {
    if s.platformsSet {
      var h := FirstHit(s.ball.Box(), s.platforms, VisibleBounds(s), 0);
      assert Staged(s) == s.platforms;
      if mv.hit.Some? && h.Some? {
        assert !(mv.hit.value < h.value) && !(h.value < mv.hit.value);
      }
    }
  }
}

=== FILE: solver.dfy ===
/** `choices_are_valid` and the backtracking search
    `get_valid_platform_choices` of main_3d.py. The target frames are the
    sorted note frames, a strictly increasing sequence; a choice list gives
    the orientation of the platform for each of the first frames. */
module Solver {
  import opened Options
  import opened Things3D
  import opened Scene3D

  predicate StrictlyIncreasing(s: seq<int>) {
    forall i, j :: 0 <= i < j < |s| ==> s[i] < s[j]
  }

  /** The number of frames of `targets` in start+1 .. start+n. */
  function CountTargets(targets: set<int>, start: int, n: nat): nat
    decreases n
  {
    if n == 0 then 0 else (if start + 1 in targets then 1 else 0) + CountTargets(targets, start + 1, n - 1)
  }

  /** `n` frames of construction mode; construction never fails. */
  function RunConstruction(s: Scene, n: nat): (r: Scene)
    requires !s.platformsSet
    ensures !r.platformsSet && r.frameCount == s.frameCount + n && r.bounceFrames == s.bounceFrames
    ensures |r.platforms| == |s.platforms| + CountTargets(s.bounceFrames, s.frameCount, n)
    ensures Indexed(s.platforms) ==> Indexed(r.platforms)
    decreases n
  {
    if n == 0 then s
    else
      var t := Update(s).value;
      UpdatePlatforms(s);
      RunConstruction(t, n - 1)
  }

  /** `n` steps of `step` from `s`, stopping at the first failure. */
  function Iterate<S, E>(step: S -> Result<S, E>, s: S, n: nat): Result<S, E>
    decreases n
  {
    if n == 0 then Ok(s)
    else
      match step(s)
      case Err(e) => Err(e)
      case Ok(t) => Iterate(step, t, n - 1)
  }

  /** A failure within the first m steps is the failure of every longer run. */
  lemma {:induction false} IterateFailureKept<S, E>(step: S -> Result<S, E>, s: S, m: nat, n: nat)
    requires m <= n && Iterate(step, s, m).Err?
    ensures Iterate(step, s, n) == Iterate(step, s, m)
    decreases m
  {
    match step(s)
    case Err(_) =>
    case Ok(t) => IterateFailureKept(step, t, m - 1, n - 1);
  }

  /** `n` frames of validation mode, stopping at the first failure. */
  function RunValidation(s: Scene, n: nat): Result<Scene, SimError>
    requires s.platformsSet
  {
    Iterate(Update, s, n)
  }

  /** A step that keeps `inv`, advances `count` by one and fails only at the
      next count: n steps of it either end n counts later, still keeping
      `inv`, or fail at one of the n counts. */
  lemma {:induction false} IterateCounts<S, E>(step: S -> Result<S, E>, inv: S -> bool, count: S -> int, at: E -> int, s: S, n: nat)
    requires inv(s)
    requires forall x :: inv(x) && step(x).Ok? ==> inv(step(x).value) && count(step(x).value) == count(x) + 1
    requires forall x :: inv(x) && step(x).Err? ==> at(step(x).error) == count(x) + 1
    ensures Iterate(step, s, n).Ok? ==> inv(Iterate(step, s, n).value) && count(Iterate(step, s, n).value) == count(s) + n
    ensures Iterate(step, s, n).Err? ==> count(s) < at(Iterate(step, s, n).error) <= count(s) + n
    decreases n
  {
    if n > 0 {
      match step(s)
      case Err(_) =>
      case Ok(t) => IterateCounts(step, inv, count, at, t, n - 1);
    }
  }

  /** A validation run that passes ends n frames later still in validation
      mode; one that fails does so on one of its n frames. */
  lemma RunValidationFrames(s: Scene, n: nat)
    requires s.platformsSet
    ensures var r := RunValidation(s, n);
      && (r.Ok? ==> r.value.platformsSet && r.value.frameCount == s.frameCount + n)
      && (r.Err? ==> s.frameCount < r.error.frame <= s.frameCount + n)
  {
    IterateCounts(Update, (x: Scene) => x.platformsSet, (x: Scene) => x.frameCount, (e: SimError) => e.frame, s, n);
  }

  /** A step that keeps `inv` and fails exactly in the states `fails` picks
      out: n steps of it pass exactly when none of the n states it starts
      from fails. */
  lemma {:induction false} IteratePasses<S, E>(step: S -> Result<S, E>, inv: S -> bool, fails: S -> bool, s: S, n: nat)
    requires inv(s)
    requires forall x {:trigger step(x)} :: inv(x) ==> (step(x).Err? <==> fails(x)) && (step(x).Ok? ==> inv(step(x).value))
    ensures Iterate(step, s, n).Ok? ==> forall k :: 0 <= k < n ==> Iterate(step, s, k).Ok? && !fails(Iterate(step, s, k).value)
    ensures (forall k :: 0 <= k < n ==> Iterate(step, s, k).Ok? && !fails(Iterate(step, s, k).value)) ==> Iterate(step, s, n).Ok?
    decreases n
  {
    if n > 0 {
      assert Iterate(step, s, 0) == Ok(s);
      match step(s)
      case Err(_) =>
      case Ok(t) =>
        IteratePasses(step, inv, fails, t, n - 1);
        assert Iterate(step, s, n) == Iterate(step, t, n - 1);
        forall j | 0 <= j < n - 1
          ensures Iterate(step, s, j + 1) == Iterate(step, t, j)
        {
        }
        if forall k :: 0 <= k < n ==> Iterate(step, s, k).Ok? && !fails(Iterate(step, s, k).value) {
          forall j | 0 <= j < n - 1
            ensures Iterate(step, t, j).Ok? && !fails(Iterate(step, t, j).value)
          {
            assert Iterate(step, s, j + 1) == Iterate(step, t, j);
          }
          assert Iterate(step, t, n - 1).Ok?;
          assert Iterate(step, s, n).Ok?;
        }
        if Iterate(step, t, n - 1).Ok? {
          forall k | 0 <= k < n
            ensures Iterate(step, s, k).Ok? && !fails(Iterate(step, s, k).value)
          {
            if k > 0 {
              assert Iterate(step, s, k) == Iterate(step, t, k - 1);
              assert Iterate(step, t, k - 1).Ok?;
              assert !fails(Iterate(step, t, k - 1).value);
            } else {
              assert !fails(s);
            }
          }
          assert forall k :: 0 <= k < n ==> Iterate(step, s, k).Ok? && !fails(Iterate(step, s, k).value);
        } else {
          assert !Iterate(step, s, n).Ok?;
          assert !(forall k :: 0 <= k < n ==> Iterate(step, s, k).Ok? && !fails(Iterate(step, s, k).value));
        }
    }
  }

  /** A validation run passes exactly when none of its frames fails: no
      frame misses a bounce the platforms record, and no hit platform
      records another frame. */
  lemma RunValidationPasses(s: Scene, n: nat)
    requires s.platformsSet
    ensures RunValidation(s, n).Ok? ==> forall k :: 0 <= k < n ==> RunValidation(s, k).Ok? && !Fails(RunValidation(s, k).value)
    ensures (forall k :: 0 <= k < n ==> RunValidation(s, k).Ok? && !Fails(RunValidation(s, k).value)) ==> RunValidation(s, n).Ok?
  {
    var inv := (x: Scene) => x.platformsSet;
    ValidationSteps(Update, inv);
    IteratePasses(Update, inv, Fails, s, n);
    forall k | 0 <= k <= n
      ensures RunValidation(s, k) == Iterate(Update, s, k)
    {
    }
  }

  /** Every passing prefix of a validation run ends on its own frame. */
  lemma RunValidationPrefixFrames(s: Scene, n: nat)
    requires s.platformsSet
    ensures forall k :: 0 <= k <= n && RunValidation(s, k).Ok? ==> RunValidation(s, k).value.frameCount == s.frameCount + k
  {
    forall k | 0 <= k <= n && RunValidation(s, k).Ok?
      ensures RunValidation(s, k).value.frameCount == s.frameCount + k
    {
      RunValidationFrames(s, k);
    }
  }

  /** In validation mode a frame fails exactly when `Fails` says so, and a
      frame that passes stays in validation mode. */
  lemma ValidationSteps(step: Scene -> Result<Scene, SimError>, inv: Scene -> bool)
    requires forall x: Scene :: step(x) == Update(x)
    requires forall x: Scene :: inv(x) == x.platformsSet
    ensures forall x: Scene {:trigger step(x)} :: inv(x) ==> (step(x).Err? <==> Fails(x)) && (step(x).Ok? ==> inv(step(x).value))
  {
  }

  /** A validation failure within the first m frames is the failure of every
      longer run. */
  lemma RunValidationFailureKept(s: Scene, m: nat, n: nat)
    requires s.platformsSet && m <= n && RunValidation(s, m).Err?
    ensures RunValidation(s, n) == RunValidation(s, m)
  {
    IterateFailureKept(Update, s, m, n);
  }

  /** The orientation chosen for each of the first |choices| target frames. */
  function ChoiceMap(frames: seq<int>, choices: seq<bool>): (m: map<int, bool>)
    requires StrictlyIncreasing(frames) && |choices| <= |frames|
    ensures forall f :: f in m <==> exists i :: 0 <= i < |choices| && frames[i] == f
    ensures forall i :: 0 <= i < |choices| ==> frames[i] in m && m[frames[i]] == choices[i]
  {
    map i | 0 <= i < |choices| :: frames[i] := choices[i]
  }

  function Targets(frames: seq<int>): set<int> {
    set f | f in frames
  }

  /** The run length of `choices_are_valid`: `range(max(choices.keys()))`,
      the last chosen frame, empty when that is not positive. */
  function RunLength(frames: seq<int>, choices: seq<bool>): nat
    requires 0 < |choices| <= |frames|
  {
    var numFrames := frames[|choices| - 1];
    if numFrames > 0 then numFrames else 0
  }

  /** The first pass of `choices_are_valid`: construction mode from a fresh
      ball, with every note frame as a target and the chosen orientations. */
  function Build(frames: seq<int>, choices: seq<bool>): (s: Scene)
    requires StrictlyIncreasing(frames) && 0 < |choices| <= |frames|
    ensures Indexed(s.platforms)
    ensures |s.platforms| == CountTargets(Targets(frames), 0, RunLength(frames, choices))
  {
    RunConstruction(
      NewScene(ScreenWidth, ScreenHeight, NewBall(BallStartX, BallStartY, BallSize, BallSpeed),
               Targets(frames), ChoiceMap(frames, choices)),
      RunLength(frames, choices))
  }

  /** `choices_are_valid(note_frames, choices)`: the platforms of the
      construction pass, replayed in validation mode from a fresh ball for
      as many frames, must not fail. An empty choice list or more choices
      than frames raise in the source (max of no keys, list index out of
      range). */
  function ChoicesAreValid(frames: seq<int>, choices: seq<bool>): (r: bool)
    requires StrictlyIncreasing(frames) && 0 < |choices| <= |frames|
    // passing means no frame 1 .. RunLength of the replay fails
    ensures r ==> forall k :: 0 <= k < RunLength(frames, choices) ==>
      var state := RunValidation(Replay(frames, choices), k);
      state.Ok? && state.value.frameCount == k && !Fails(state.value)
    ensures (forall k :: 0 <= k < RunLength(frames, choices) ==>
      var state := RunValidation(Replay(frames, choices), k);
      state.Ok? && !Fails(state.value)) ==> r
  {
    var replay := Replay(frames, choices);
    ValidationVerdict(replay, RunLength(frames, choices));
    RunValidation(replay, RunLength(frames, choices)).Ok?
  }

  /** A validation replay from frame zero passes its n frames exactly when
      each frame 1 .. n is reached and does not fail. */
  lemma ValidationVerdict(s: Scene, n: nat)
    requires s.platformsSet && s.frameCount == 0
    ensures RunValidation(s, n).Ok? ==> forall k :: 0 <= k < n ==>
      var state := RunValidation(s, k);
      state.Ok? && state.value.frameCount == k && !Fails(state.value)
    ensures (forall k :: 0 <= k < n ==>
      var state := RunValidation(s, k);
      state.Ok? && !Fails(state.value)) ==> RunValidation(s, n).Ok?
  {
    RunValidationPasses(s, n);
    RunValidationPrefixFrames(s, n);
  }

  /** The second pass of `choices_are_valid`: a fresh ball at frame zero in
      validation mode over the platforms the construction pass placed. */
  function Replay(frames: seq<int>, choices: seq<bool>): (s: Scene)
    requires StrictlyIncreasing(frames) && 0 < |choices| <= |frames|
    ensures s.platformsSet && s.frameCount == 0 && s.platforms == Build(frames, choices).platforms
    ensures s.ball == NewBall(BallStartX, BallStartY, BallSize, BallSpeed)
  {
    SetPlatforms(
      NewScene(ScreenWidth, ScreenHeight, NewBall(BallStartX, BallStartY, BallSize, BallSpeed), {}, map[]),
      Build(frames, choices).platforms)
  }

  /** With positive note frames, the construction pass places exactly one
      platform per choice, each at its own index. */
  lemma BuildPlacesOnePerChoice(frames: seq<int>, choices: seq<bool>)
    requires StrictlyIncreasing(frames) && 0 < |choices| <= |frames| && frames[0] > 0
    ensures |Build(frames, choices).platforms| == |choices|
  {
    CountTargetsPrefix(frames, |choices|);
  }

  lemma {:induction false} CountTargetsSplit(targets: set<int>, start: int, n1: nat, n2: nat)
    ensures CountTargets(targets, start, n1 + n2) == CountTargets(targets, start, n1) + CountTargets(targets, start + n1, n2)
    decreases n1
  {
    if n1 > 0 {
      CountTargetsSplit(targets, start + 1, n1 - 1, n2);
    }
  }

  lemma {:induction false} CountTargetsNone(targets: set<int>, start: int, n: nat)
    requires forall f :: f in targets ==> !(start < f <= start + n)
    ensures CountTargets(targets, start, n) == 0
    decreases n
  {
    if n > 0 {
      CountTargetsNone(targets, start + 1, n - 1);
    }
  }

  /** Up to and including the m-th of strictly increasing positive frames
      lie exactly m of them. */
  lemma {:induction false} CountTargetsPrefix(frames: seq<int>, m: nat)
    requires StrictlyIncreasing(frames) && 0 < m <= |frames| && frames[0] > 0
    ensures CountTargets(Targets(frames), 0, frames[m - 1]) == m
    decreases m
  {
    var targets := Targets(frames);
    var last := frames[m - 1];
    var before: int := if m == 1 then 0 else frames[m - 2];
    if m > 1 {
      CountTargetsPrefix(frames, m - 1);
    } else {
      CountTargetsNone(targets, 0, 0);
    }
    assert 0 <= before < last;
    CountTargetsSplit(targets, 0, before, last - before);
    CountTargetsSplit(targets, before, last - before - 1, 1);
    forall f | f in targets
      ensures !(before < f <= before + (last - before - 1))
    {
      var i :| 0 <= i < |frames| && frames[i] == f;
      if i < m - 1 {
        assert f <= before;
      } else if i >= m {
        assert f > last;
      }
    }
    CountTargetsNone(targets, before, last - before - 1);
    assert last in targets;
  }

  /** `choices_are_valid` as a total predicate on choice lists. */
  predicate Valid(frames: seq<int>, choices: seq<bool>) {
    StrictlyIncreasing(frames) && 0 < |choices| <= |frames| && ChoicesAreValid(frames, choices)
  }

  /** Every prefix of `r` from length `from` on passes the check `valid`:
      the search can reach `r` without being pruned. */
  predicate Viable(valid: seq<bool> -> bool, from: nat, r: seq<bool>) {
    from <= |r| && forall j :: from <= j <= |r| ==> valid(r[..j])
  }

  /** The depth-first search of `get_valid_platform_choices` below a prefix,
      for `size` frames, with the prefix check `valid` (`choices_are_valid`).
      `flip(prefix)` is the coin `random.choice([True, False])` drawn at that
      node: true tries False before True. The recursion depth is bounded by
      the number of frames. */
  function Search(size: nat, prefix: seq<bool>, valid: seq<bool> -> bool, flip: seq<bool> -> bool): (r: Option<seq<bool>>)
    requires 0 < |prefix| <= size
    ensures r.Some? ==> |r.value| == size && r.value[..|prefix|] == prefix
    ensures r.Some? ==> Viable(valid, |prefix|, r.value) && valid(r.value)
    ensures !valid(prefix) ==> r.None?
    decreases size - |prefix|
  {
    if |prefix| == size then
      if valid(prefix) then
        assert prefix[..|prefix|] == prefix;
        Some(prefix)
      else None
    else if !valid(prefix) then None
    else
      var first := !flip(prefix);
      var tried := Search(size, prefix + [first], valid, flip);
      var result := if tried.Some? then tried else Search(size, prefix + [!first], valid, flip);
      if result.Some? then
        ViableExtends(valid, prefix, result.value);
        result
      else result
  }

  lemma ViableExtends(valid: seq<bool> -> bool, prefix: seq<bool>, r: seq<bool>)
    requires |prefix| < |r| && r[..|prefix|] == prefix && valid(prefix)
    requires Viable(valid, |prefix| + 1, r)
    ensures Viable(valid, |prefix|, r)
  {
    forall j | |prefix| <= j <= |r|
      ensures valid(r[..j])
    {
      if j == |prefix| {
        assert r[..j] == prefix;
      }
    }
  }

  /** The search misses nothing: it finds a choice list whenever some
      completion of the prefix to full length survives every pruning step. */
  lemma {:induction false} SearchComplete(size: nat, prefix: seq<bool>, valid: seq<bool> -> bool, flip: seq<bool> -> bool, r: seq<bool>)
    requires 0 < |prefix| <= size
    requires |r| == size && r[..|prefix|] == prefix && Viable(valid, |prefix|, r)
    ensures Search(size, prefix, valid, flip).Some?
    decreases size - |prefix|
  {
    assert r[..|prefix|] == prefix;
    assert valid(prefix);
    if |prefix| < size {
      var next := prefix + [r[|prefix|]];
      assert r[..|next|] == next;
      SearchComplete(size, next, valid, flip, r);
      var first := !flip(prefix);
      if r[|prefix|] != first {
        assert next == prefix + [!first];
      }
    } else {
      assert r == prefix;
    }
  }

  /** `get_valid_platform_choices(note_frames, choices)`. An empty list gets
      one coin `seed` appended in place first; when the caller relies on the
      mutable default argument, that append persists into every later call,
      so the list after the call is returned beside the result. An empty
      `note_frames` raises in the source and is excluded. */
  function GetValidPlatformChoices(frames: seq<int>, choices: seq<bool>, seed: bool, flip: seq<bool> -> bool)
    : (r: (Option<seq<bool>>, seq<bool>))
    requires StrictlyIncreasing(frames) && 0 < |frames| && |choices| <= |frames|
    ensures r.1 == if |choices| == 0 then [seed] else choices
    ensures r.0.Some? ==> |r.0.value| == |frames| && r.0.value[..|r.1|] == r.1 && Valid(frames, r.0.value)
    ensures !Valid(frames, r.1) ==> r.0.None?
  {
    var start := if |choices| == 0 then [seed] else choices;
    (Search(|frames|, start, c => Valid(frames, c), flip), start)
  }

  /** The top-level search finds a choice list whenever one exists that
      extends the starting list and survives every pruning step. */
  lemma GetValidPlatformChoicesComplete(frames: seq<int>, choices: seq<bool>, seed: bool, flip: seq<bool> -> bool, r: seq<bool>)
    requires StrictlyIncreasing(frames) && 0 < |frames| && |choices| <= |frames|
    requires var start := if |choices| == 0 then [seed] else choices;
      |r| == |frames| && r[..|start|] == start && forall j :: |start| <= j <= |r| ==> Valid(frames, r[..j])
    ensures GetValidPlatformChoices(frames, choices, seed, flip).0.Some?
  {
    var start := if |choices| == 0 then [seed] else choices;
    SearchComplete(|frames|, start, c => Valid(frames, c), flip, r);
  }
}

=== FILE: things3d.dfy ===
/** The entities of main_3d.py: `Thing` and its subclasses `Wall`,
    `Platform` and `Ball`, without colour, depth and rendering state.
    Coordinates are exact reals; the source's decimals (0.35, 0.6) are
    IEEE doubles there, so this is an idealisation of its arithmetic. */
module Things3D {
  import opened Options
  import opened Geometry
  import opened Carve
  import Bounce

  // The constants of main_3d.py. `SCREEN_WIDTH // 2` and `SCREEN_HEIGHT // 2`
  // are integer divisions; the decimals are exact here.
  const ScreenWidth: real := 8.0
  const ScreenHeight: real := 15.0
  const BallStartX: real := 4.0
  const BallStartY: real := 7.0
  const BallSize: real := 0.6
  const PlatformHeight: real := BallSize * 2.0
  const PlatformWidth: real := BallSize
  const BallSpeed: real := 0.35
  const Alpha: real := BallSpeed / 8.0

  /** A platform: its rectangle, its orientation flag (true: long side
      horizontal, the ball's y speed may flip), its index in the scene's
      list and its expected bounce frame. */
  datatype Platform = Platform(rect: Rect, orientation: bool, index: int, expected: Option<int>)

  datatype Wall = Wall(rect: Rect, visible: bool)

  /** A square ball of side `size` at (x, y) with speed (vx, vy) and its
      carve square. */
  datatype Ball = Ball(x: real, y: real, size: real, vx: real, vy: real, carve: CarveSquare) {
    function Box(): Rect { Rect(x, y, size, size) }
  }

  /** `Ball(x, y, size, color, speed)`: both speed components start equal
      and the carve square starts as the ball's own box. */
  function NewBall(x: real, y: real, size: real, speed: real): (b: Ball)
    ensures b.x == x && b.y == y && b.size == size
    ensures b.vx == speed && b.vy == speed
    ensures size >= 0.0 ==> CarveBox(b.carve) == b.Box().Edges()
    ensures b.carve.locked == LockedCorner(speed, speed)
  {
    Ball(x, y, size, speed, speed, InitCarve(x, y, size, speed, speed))
  }

  function NewWall(x: real, y: real, width: real, height: real): Wall {
    Wall(Rect(x, y, width, height), true)
  }

  /** One visible wall per rectangle, in order, as `place_walls` builds them
      from grid cells and `set_walls` from merged rectangles. */
  function NewWalls(rects: seq<Rect>): (r: seq<Wall>)
    ensures |r| == |rects| && forall i :: 0 <= i < |rects| ==> r[i] == Wall(rects[i], true)
  {
    seq(|rects|, i requires 0 <= i < |rects| => NewWall(rects[i].x, rects[i].y, rects[i].width, rects[i].height))
  }

  /** `Thing.in_frame(visible_bounds)`. */
  predicate InFrame(r: Rect, bounds: Box) {
    Touches(bounds, r)
  }

  /** A thing in frame stays in frame when the bounds widen. */
  lemma InFrameWiderBounds(r: Rect, inner: Box, outer: Box)
    requires outer.left <= inner.left && inner.right <= outer.right
    requires outer.top <= inner.top && inner.bottom <= outer.bottom
    ensures InFrame(r, inner) ==> InFrame(r, outer)
  {
  }

  /** A thing of non-negative size wholly inside the bounds is in frame, and
      one wholly to one side of them is not. */
  lemma InFrameCovered(r: Rect, bounds: Box)
    requires r.width >= 0.0 && r.height >= 0.0
    ensures Covers(bounds, r) ==> InFrame(r, bounds)
    ensures r.Right() < bounds.left || bounds.right < r.x || r.Bottom() < bounds.top || bounds.bottom < r.y
      ==> !InFrame(r, bounds)
  {
  }

  function SetExpectedBounceFrame(p: Platform, frame: int): (r: Platform)
    ensures r.rect == p.rect && r.orientation == p.orientation && r.index == p.index
    // Python truthiness: a recorded non-zero frame stays, None or 0 is overwritten
    ensures p.expected.Some? && p.expected.value != 0 ==> r.expected == p.expected
    ensures p.expected.None? || p.expected.value == 0 ==> r.expected == Some(frame)
  {
    p.(expected := Bounce.RecordBounce(p.expected, frame))
  }

  /** `Ball.predict_position(frames)`. */
  function PredictPosition(b: Ball, frames: int): Point {
    Point(b.x + b.vx * frames as real, b.y + b.vy * frames as real)
  }

  /** Predicting m frames ahead and then n more from there is predicting
      m + n frames ahead. */
  lemma PredictAdds(b: Ball, m: int, n: int)
    ensures var p := PredictPosition(b, m);
      PredictPosition(b.(x := p.x, y := p.y), n) == PredictPosition(b, m + n)
  {
    Advance(b.x, b.vx, m, n);
    Advance(b.y, b.vy, m, n);
  }

  lemma Advance(start: real, v: real, m: int, n: int)
    ensures (start + v * m as real) + v * n as real == start + v * (m + n) as real
  {
    assert (m + n) as real == m as real + n as real;
  }
}

=== FILE: wall_grid.dfy ===
/** `Scene.create_squares` and `Scene.place_walls` of main_3d.py: the wall
    cells are the grid cut out of the platforms' bounding region by every
    platform edge, plus four border walls around that region. */
module WallGrid {
  import opened Options
  import opened Geometry
  import opened Things3D

  predicate Sorted(s: seq<real>) {
    forall i, j :: 0 <= i < j < |s| ==> s[i] <= s[j]
  }

  function Insert(v: real, s: seq<real>): (r: seq<real>)
    requires Sorted(s)
    ensures Sorted(r)
    ensures multiset(r) == multiset(s) + multiset{v}
    ensures r[0] == (if |s| == 0 || v <= s[0] then v else s[0])
  {
    if |s| == 0 then [v]
    else if v <= s[0] then ConsSorted(v, s); [v] + s
    else
      var tail := Insert(v, s[1..]);
      assert s == [s[0]] + s[1..];
      ConsSorted(s[0], tail);
      [s[0]] + tail
  }

  /** A value no larger than the head of a sorted list extends it sorted. */
  lemma ConsSorted(x: real, t: seq<real>)
    requires Sorted(t) && (|t| > 0 ==> x <= t[0])
    ensures Sorted([x] + t)
  {
  }

  /** Python's `sorted` on a list of numbers. */
  function Sort(s: seq<real>): (r: seq<real>)
    ensures Sorted(r)
    ensures multiset(r) == multiset(s)
  {
    if |s| == 0 then []
    else
      assert s == [s[0]] + s[1..];
      Insert(s[0], Sort(s[1..]))
  }

  function SeqMin(s: seq<real>): (m: real)
    requires |s| > 0
    ensures m in s && forall i :: 0 <= i < |s| ==> m <= s[i]
  {
    if |s| == 1 then s[0]
    else
      var rest := SeqMin(s[1..]);
      assert forall i :: 1 <= i < |s| ==> s[i] == s[1..][i - 1];
      if s[0] <= rest then s[0] else rest
  }

  function SeqMax(s: seq<real>): (m: real)
    requires |s| > 0
    ensures m in s && forall i :: 0 <= i < |s| ==> s[i] <= m
  {
    if |s| == 1 then s[0]
    else
      var rest := SeqMax(s[1..]);
      assert forall i :: 1 <= i < |s| ==> s[i] == s[1..][i - 1];
      if s[0] >= rest then s[0] else rest
  }

  function Last(s: seq<real>): real
    requires |s| > 0
  {
    s[|s| - 1]
  }

  /** A sorted permutation starts at the minimum and ends at the maximum. */
  lemma SortEnds(s: seq<real>)
    requires |s| > 0
    ensures |Sort(s)| == |s|
    ensures Sort(s)[0] == SeqMin(s) && Last(Sort(s)) == SeqMax(s)
  {
    SortedPermutationEnds(Sort(s), s);
  }

  lemma SortedPermutationEnds(r: seq<real>, s: seq<real>)
    requires |s| > 0 && Sorted(r) && multiset(r) == multiset(s)
    ensures |r| == |s|
    ensures r[0] == SeqMin(s) && Last(r) == SeqMax(s)
  {
    assert |r| == |s| by {
      assert |multiset(r)| == |multiset(s)|;
    }
    var lo := SeqMin(s);
    var hi := SeqMax(s);
    assert lo in multiset(r) && hi in multiset(r);
    var a :| 0 <= a < |r| && r[a] == lo;
    var b :| 0 <= b < |r| && r[b] == hi;
    assert r[0] <= r[a] && r[b] <= Last(r);
    assert r[0] in multiset(s) && Last(r) in multiset(s);
    assert r[0] in s && Last(r) in s;
  }

  /** The cells between x and x2 for consecutive pairs of `ys`, keeping only
      those of non-zero width and height (the inner `for ... if` of the
      comprehension). */
  function Column(x: real, x2: real, ys: seq<real>): seq<Rect>
    decreases |ys|
  {
    if |ys| < 2 then []
    else
      (if x2 - x != 0.0 && ys[1] - ys[0] != 0.0 then [Rect(x, ys[0], x2 - x, ys[1] - ys[0])] else [])
      + Column(x, x2, ys[1..])
  }

  /** All cells, the x pairs in the outer loop and the y pairs inner. */
  function Cells(xs: seq<real>, ys: seq<real>): seq<Rect>
    decreases |xs|
  {
    if |xs| < 2 then [] else Column(xs[0], xs[1], ys) + Cells(xs[1..], ys)
  }

  lemma {:induction false} ColumnCells(x: real, x2: real, ys: seq<real>)
    requires x <= x2 && Sorted(ys) && |ys| > 0
    ensures forall c :: c in Column(x, x2, ys) ==>
      c.width > 0.0 && c.height > 0.0 && c.x == x && c.Right() == x2 && ys[0] <= c.y && c.Bottom() <= Last(ys)
    decreases |ys|
  {
    if |ys| >= 2 {
      assert Sorted(ys[1..]);
      ColumnCells(x, x2, ys[1..]);
      assert Last(ys[1..]) == Last(ys);
      assert ys[0] <= ys[1] <= Last(ys);
    }
  }

  /** A column has the area of the strip from its first to its last row. */
  lemma ColumnArea(x: real, x2: real, ys: seq<real>)
    requires |ys| > 0
    ensures TotalArea(Column(x, x2, ys)) == (x2 - x) * (Last(ys) - ys[0])
  {
    if x2 - x == 0.0 {
      ColumnWithoutWidth(x, x2, ys);
      FlatStrip(x2 - x, Last(ys) - ys[0]);
    } else {
      WideColumnArea(x, x2, ys);
    }
  }

  lemma WideColumnArea(x: real, x2: real, ys: seq<real>)
    requires |ys| > 0 && x2 - x != 0.0
    ensures TotalArea(Column(x, x2, ys)) == (x2 - x) * (Last(ys) - ys[0])
  {
    ColumnWidths(x, x2, ys);
    UniformWidthArea(Column(x, x2, ys), x2 - x);
    ColumnHeights(x, x2, ys);
    ScaleEqual(TotalArea(Column(x, x2, ys)), x2 - x, Heights(Column(x, x2, ys)), Last(ys) - ys[0]);
  }

  /** The summed heights of a sequence of cells. */
  function Heights(cs: seq<Rect>): real {
    if |cs| == 0 then 0.0 else cs[0].height + Heights(cs[1..])
  }

  /** Cells of one common width w cover w times their summed heights. */
  lemma {:induction false} UniformWidthArea(cs: seq<Rect>, w: real)
    requires forall c :: c in cs ==> c.width == w
    ensures TotalArea(cs) == w * Heights(cs)
    decreases |cs|
  {
    if |cs| > 0 {
      assert forall c :: c in cs[1..] ==> c in cs;
      UniformWidthArea(cs[1..], w);
      CellArea(cs[0], w);
      StripsAdd(TotalArea(cs), cs[0].Area(), TotalArea(cs[1..]), w, cs[0].height, Heights(cs[1..]), Heights(cs));
    }
  }

  lemma CellArea(c: Rect, w: real)
    requires c.width == w
    ensures c.Area() == w * c.height
  {
  }

  lemma {:induction false} ColumnWidths(x: real, x2: real, ys: seq<real>)
    ensures forall c :: c in Column(x, x2, ys) ==> c.width == x2 - x
    decreases |ys|
  {
    if |ys| >= 2 {
      ColumnWidths(x, x2, ys[1..]);
    }
  }

  /** A column of non-zero width keeps every row of non-zero height, so its
      heights add up to the span of the rows. */
  lemma {:induction false} ColumnHeights(x: real, x2: real, ys: seq<real>)
    requires |ys| > 0 && x2 - x != 0.0
    ensures Heights(Column(x, x2, ys)) == Last(ys) - ys[0]
    decreases |ys|
  {
    if |ys| >= 2 {
      ColumnHeights(x, x2, ys[1..]);
      assert Last(ys[1..]) == Last(ys) && ys[1..][0] == ys[1];
      var rest := Column(x, x2, ys[1..]);
      if ys[1] - ys[0] != 0.0 {
        var cell := Rect(x, ys[0], x2 - x, ys[1] - ys[0]);
        assert Column(x, x2, ys) == [cell] + rest;
        assert ([cell] + rest)[1..] == rest;
      } else {
        assert Column(x, x2, ys) == [] + rest;
        assert [] + rest == rest;
      }
    } else {
      assert Column(x, x2, ys) == [];
    }
  }

  lemma {:induction false} ColumnWithoutWidth(x: real, x2: real, ys: seq<real>)
    requires x2 - x == 0.0
    ensures Column(x, x2, ys) == []
    decreases |ys|
  {
    if |ys| >= 2 {
      ColumnWithoutWidth(x, x2, ys[1..]);
    }
  }

  /** Two strips of width w and heights h1 and h2 make up the strip of
      height h1 + h2. */
  lemma StripsAdd(total: real, first: real, second: real, w: real, h1: real, h2: real, h: real)
    requires total == first + second && h == h1 + h2
    requires first == w * h1 && second == w * h2
    ensures total == w * h
  {
    Distribute(w, h1, h2);
  }

  lemma ScaleEqual(total: real, w: real, a: real, b: real)
    requires total == w * a && a == b
    ensures total == w * b
  {
  }

  lemma FlatStrip(w: real, h: real)
    requires w == 0.0
    ensures TotalArea([]) == w * h
  {
  }

  lemma Telescope(a: real, p: real, q: real, r: real)
    ensures (q - p) * a + (r - q) * a == (r - p) * a
  {
  }

  lemma Distribute(a: real, b: real, c: real)
    ensures a * b + a * c == a * (b + c)
    ensures b * a + c * a == (b + c) * a
  {
  }

  lemma {:induction false} ColumnNonEmpty(x: real, x2: real, ys: seq<real>)
    requires x <= x2 && Sorted(ys) && |ys| > 0
    ensures |Column(x, x2, ys)| > 0 <==> x < x2 && ys[0] < Last(ys)
    decreases |ys|
  {
    if |ys| >= 2 {
      assert Sorted(ys[1..]);
      ColumnNonEmpty(x, x2, ys[1..]);
      assert Last(ys[1..]) == Last(ys);
      assert ys[0] <= ys[1] <= Last(ys);
    }
  }

  lemma {:induction false} CellsInRegion(xs: seq<real>, ys: seq<real>)
    requires Sorted(xs) && Sorted(ys) && |xs| > 0 && |ys| > 0
    ensures forall c :: c in Cells(xs, ys) ==>
      c.width > 0.0 && c.height > 0.0
      && xs[0] <= c.x && c.Right() <= Last(xs) && ys[0] <= c.y && c.Bottom() <= Last(ys)
    decreases |xs|
  {
    if |xs| >= 2 {
      assert xs[0] <= xs[1] <= Last(xs);
      ColumnCells(xs[0], xs[1], ys);
      assert Sorted(xs[1..]);
      CellsInRegion(xs[1..], ys);
      assert Last(xs[1..]) == Last(xs);
    }
  }

  /** The cells of a grid have the area of one column spanning its width. */
  lemma {:induction false} CellsArea(xs: seq<real>, ys: seq<real>)
    requires |xs| > 0
    ensures TotalArea(Cells(xs, ys)) == TotalArea(Column(xs[0], Last(xs), ys))
    decreases |xs|
  {
    if |xs| >= 2 {
      CellsArea(xs[1..], ys);
      assert xs[1..][0] == xs[1] && Last(xs[1..]) == Last(xs);
      CellsUnfold(xs, ys);
      ColumnSplit(xs[0], xs[1], Last(xs), ys);
    } else {
      assert Cells(xs, ys) == [];
      ColumnEmpty(xs[0], ys);
    }
  }

  lemma CellsUnfold(xs: seq<real>, ys: seq<real>)
    requires |xs| >= 2
    ensures TotalArea(Cells(xs, ys)) == TotalArea(Column(xs[0], xs[1], ys)) + TotalArea(Cells(xs[1..], ys))
  {
    var col := Column(xs[0], xs[1], ys);
    var rest := Cells(xs[1..], ys);
    assert Cells(xs, ys) == col + rest;
    TotalAreaConcat(col, rest);
  }

  /** Two adjacent columns over the same rows have the area of their union. */
  lemma ColumnSplit(a: real, b: real, c: real, ys: seq<real>)
    ensures TotalArea(Column(a, b, ys)) + TotalArea(Column(b, c, ys)) == TotalArea(Column(a, c, ys))
  {
    if |ys| > 0 {
      ColumnArea(a, b, ys);
      ColumnArea(b, c, ys);
      ColumnArea(a, c, ys);
      Telescope(Last(ys) - ys[0], a, b, c);
    } else {
      assert Column(a, b, ys) == [] && Column(b, c, ys) == [] && Column(a, c, ys) == [];
    }
  }

  /** A column of zero width has no area. */
  lemma ColumnEmpty(x: real, ys: seq<real>)
    ensures TotalArea(Column(x, x, ys)) == 0.0
  {
    if |ys| > 0 {
      ColumnArea(x, x, ys);
      ZeroStrip(x, Last(ys) - ys[0]);
    }
  }

  /** Two adjacent strips of the same height add up to one. */
  lemma SumOfStrips(left: real, right: real, a: real, b: real, c: real, h: real)
    requires left == (b - a) * h && right == (c - b) * h
    ensures left + right == (c - a) * h
  {
  }

  lemma ZeroStrip(a: real, h: real)
    ensures (a - a) * h == 0.0
  {
  }


  lemma {:induction false} CellsNonEmpty(xs: seq<real>, ys: seq<real>)
    requires Sorted(xs) && Sorted(ys) && |xs| > 0 && |ys| > 0
    ensures |Cells(xs, ys)| > 0 <==> xs[0] < Last(xs) && ys[0] < Last(ys)
    decreases |xs|
  {
    if |xs| >= 2 {
      assert xs[0] <= xs[1] <= Last(xs);
      ColumnNonEmpty(xs[0], xs[1], ys);
      assert Sorted(xs[1..]);
      CellsNonEmpty(xs[1..], ys);
      assert Last(xs[1..]) == Last(xs);
    }
  }

  /** The bounding region of a list of x and y coordinates. */
  function Region(xs: seq<real>, ys: seq<real>): Box
    requires |xs| > 0 && |ys| > 0
  {
    Box(SeqMin(xs), SeqMax(xs), SeqMin(ys), SeqMax(ys))
  }

  /** The cells cut by consecutive coordinates tile the span from the first
      to the last coordinate exactly: their areas add up to its area. */
  lemma GridArea(sx: seq<real>, sy: seq<real>, lox: real, hix: real, loy: real, hiy: real)
    requires |sx| > 0 && |sy| > 0
    requires sx[0] == lox && Last(sx) == hix && sy[0] == loy && Last(sy) == hiy
    ensures TotalArea(Cells(sx, sy)) == (hix - lox) * (hiy - loy)
  {
    CellsArea(sx, sy);
    ColumnAreaOf(lox, hix, sy, loy, hiy);
  }

  lemma ColumnAreaOf(x: real, x2: real, ys: seq<real>, lo: real, hi: real)
    requires |ys| > 0 && ys[0] == lo && Last(ys) == hi
    ensures TotalArea(Column(x, x2, ys)) == (x2 - x) * (hi - lo)
  {
    ColumnArea(x, x2, ys);
  }

  /** `create_squares(xs, ys)`: cells of positive size inside the region of
      the coordinates, present exactly when the region has positive width
      and height. */
  function CreateSquares(xs: seq<real>, ys: seq<real>): (r: seq<Rect>)
    ensures forall c :: c in r ==> c.width > 0.0 && c.height > 0.0
    ensures |xs| > 0 && |ys| > 0 ==> forall c :: c in r ==> Covers(Region(xs, ys), c)
    ensures |r| > 0 <==> |xs| > 0 && |ys| > 0 && SeqMin(xs) < SeqMax(xs) && SeqMin(ys) < SeqMax(ys)
  {
    var sx := Sort(xs);
    var sy := Sort(ys);
    if |xs| > 0 && |ys| > 0 then
      SortEnds(xs);
      SortEnds(ys);
      CellsInRegion(sx, sy);
      CellsNonEmpty(sx, sy);
      Cells(sx, sy)
    else
      SortLength(xs);
      SortLength(ys);
      CellsWithoutRows(sx);
      Cells(sx, sy)
  }

  /** The cells tile the region exactly: their areas add up to the area of
      the box from the least to the greatest coordinate on each axis. */
  lemma CreateSquaresArea(xs: seq<real>, ys: seq<real>, minX: real, maxX: real, minY: real, maxY: real)
    requires |xs| > 0 && |ys| > 0
    requires minX == SeqMin(xs) && maxX == SeqMax(xs) && minY == SeqMin(ys) && maxY == SeqMax(ys)
    ensures TotalArea(CreateSquares(xs, ys)) == (maxX - minX) * (maxY - minY)
  {
    var sx := Sort(xs);
    var sy := Sort(ys);
    assert |sx| > 0 && |sy| > 0 && sx[0] == minX && Last(sx) == maxX && sy[0] == minY && Last(sy) == maxY by {
      SortEnds(xs);
      SortEnds(ys);
    }
    assert CreateSquares(xs, ys) == Cells(sx, sy);
    GridArea(sx, sy, minX, maxX, minY, maxY);
  }

  lemma SortLength(s: seq<real>)
    ensures |Sort(s)| == |s|
  {
    assert |Sort(s)| == |multiset(Sort(s))| == |multiset(s)| == |s|;
  }

  lemma {:induction false} CellsWithoutRows(xs: seq<real>)
    ensures Cells(xs, []) == []
    decreases |xs|
  {
    if |xs| >= 2 {
      CellsWithoutRows(xs[1..]);
    }
  }

  /** A non-empty column of cells reaches the first and the last row coordinate. */
  lemma {:induction false} ColumnReachesEnds(x: real, x2: real, ys: seq<real>)
    requires x <= x2 && Sorted(ys) && |ys| > 0 && |Column(x, x2, ys)| > 0
    ensures exists c :: c in Column(x, x2, ys) && c.y == ys[0]
    ensures exists c :: c in Column(x, x2, ys) && c.Bottom() == Last(ys)
    decreases |ys|
  {
    ColumnNonEmpty(x, x2, ys);
    var head := if x2 - x != 0.0 && ys[1] - ys[0] != 0.0 then [Rect(x, ys[0], x2 - x, ys[1] - ys[0])] else [];
    var rest := Column(x, x2, ys[1..]);
    assert Column(x, x2, ys) == head + rest;
    assert Sorted(ys[1..]) && Last(ys[1..]) == Last(ys);
    ColumnNonEmpty(x, x2, ys[1..]);
    if |rest| > 0 {
      ColumnReachesEnds(x, x2, ys[1..]);
      var b :| b in rest && b.Bottom() == Last(ys);
      assert b in Column(x, x2, ys);
    }
    if |head| > 0 {
      assert head[0] in Column(x, x2, ys);
      if |rest| == 0 {
        assert ys[1] == Last(ys);
        assert head[0].Bottom() == Last(ys);
      }
    } else {
      assert ys[1] == ys[0];
      var c :| c in rest && c.y == ys[1];
      assert c in Column(x, x2, ys);
    }
  }

  /** A non-empty grid reaches all four ends of its sorted coordinates. */
  lemma {:induction false} CellsReachEnds(xs: seq<real>, ys: seq<real>)
    requires Sorted(xs) && Sorted(ys) && |xs| > 0 && |ys| > 0 && |Cells(xs, ys)| > 0
    ensures exists c :: c in Cells(xs, ys) && c.x == xs[0]
    ensures exists c :: c in Cells(xs, ys) && c.Right() == Last(xs)
    ensures exists c :: c in Cells(xs, ys) && c.y == ys[0]
    ensures exists c :: c in Cells(xs, ys) && c.Bottom() == Last(ys)
    decreases |xs|
  {
    CellsNonEmpty(xs, ys);
    var col := Column(xs[0], xs[1], ys);
    var rest := Cells(xs[1..], ys);
    assert Cells(xs, ys) == col + rest;
    assert xs[0] <= xs[1] <= Last(xs);
    assert Sorted(xs[1..]) && Last(xs[1..]) == Last(xs);
    ColumnNonEmpty(xs[0], xs[1], ys);
    CellsNonEmpty(xs[1..], ys);
    ColumnCells(xs[0], xs[1], ys);
    if |col| > 0 {
      ColumnReachesEnds(xs[0], xs[1], ys);
      var c :| c in col && c.y == ys[0];
      var d :| d in col && d.Bottom() == Last(ys);
      assert c in Cells(xs, ys) && d in Cells(xs, ys);
      assert col[0] in Cells(xs, ys) && col[0].x == xs[0];
      if |rest| == 0 {
        assert xs[1] == Last(xs);
        assert col[0].Right() == Last(xs);
      }
    }
    if |rest| > 0 {
      CellsReachEnds(xs[1..], ys);
      var c :| c in rest && c.Right() == Last(xs);
      assert c in Cells(xs, ys);
      if |col| == 0 {
        assert xs[1] == xs[0];
        var a :| a in rest && a.x == xs[1];
        var t :| t in rest && t.y == ys[0];
        var b :| b in rest && b.Bottom() == Last(ys);
        assert a in Cells(xs, ys) && t in Cells(xs, ys) && b in Cells(xs, ys);
      }
    }
  }

  function Lefts(cs: seq<Rect>): (r: seq<real>)
    ensures |r| == |cs| && forall i :: 0 <= i < |cs| ==> r[i] == cs[i].x
  {
    seq(|cs|, i requires 0 <= i < |cs| => cs[i].x)
  }

  function Rights(cs: seq<Rect>): (r: seq<real>)
    ensures |r| == |cs| && forall i :: 0 <= i < |cs| ==> r[i] == cs[i].Right()
  {
    seq(|cs|, i requires 0 <= i < |cs| => cs[i].Right())
  }

  function Tops(cs: seq<Rect>): (r: seq<real>)
    ensures |r| == |cs| && forall i :: 0 <= i < |cs| ==> r[i] == cs[i].y
  {
    seq(|cs|, i requires 0 <= i < |cs| => cs[i].y)
  }

  function Bottoms(cs: seq<Rect>): (r: seq<real>)
    ensures |r| == |cs| && forall i :: 0 <= i < |cs| ==> r[i] == cs[i].Bottom()
  {
    seq(|cs|, i requires 0 <= i < |cs| => cs[i].Bottom())
  }

  lemma MinAttained(s: seq<real>, a: real)
    requires a in s && forall i :: 0 <= i < |s| ==> a <= s[i]
    ensures SeqMin(s) == a
  {
    var k :| 0 <= k < |s| && s[k] == a;
    var m := SeqMin(s);
    var j :| 0 <= j < |s| && s[j] == m;
    assert m <= s[k] && a <= s[j];
  }

  lemma MaxAttained(s: seq<real>, a: real)
    requires a in s && forall i :: 0 <= i < |s| ==> s[i] <= a
    ensures SeqMax(s) == a
  {
    var k :| 0 <= k < |s| && s[k] == a;
    var m := SeqMax(s);
    var j :| 0 <= j < |s| && s[j] == m;
    assert s[k] <= m && s[j] <= a;
  }

  /** The extents of the cells `place_walls` measures (`min(w[0] for w in
      walls)` and so on) are the ends of the coordinate region. */
  lemma CellExtents(xs: seq<real>, ys: seq<real>)
    requires |CreateSquares(xs, ys)| > 0
    ensures |xs| > 0 && |ys| > 0
    ensures SeqMin(Lefts(CreateSquares(xs, ys))) == SeqMin(xs)
    ensures SeqMax(Rights(CreateSquares(xs, ys))) == SeqMax(xs)
    ensures SeqMin(Tops(CreateSquares(xs, ys))) == SeqMin(ys)
    ensures SeqMax(Bottoms(CreateSquares(xs, ys))) == SeqMax(ys)
  {
    var cells := CreateSquares(xs, ys);
    var sx := Sort(xs);
    var sy := Sort(ys);
    assert |sx| > 0 && |sy| > 0 && sx[0] == SeqMin(xs) && Last(sx) == SeqMax(xs)
      && sy[0] == SeqMin(ys) && Last(sy) == SeqMax(ys) by {
      SortEnds(xs);
      SortEnds(ys);
    }
    assert cells == Cells(sx, sy);
    CellsInRegion(sx, sy);
    CellsReachEnds(sx, sy);
    ExtentsOf(cells, sx[0], Last(sx), sy[0], Last(sy));
  }

  /** Cells inside a box that reach each of its sides have that box as their extents. */
  lemma ExtentsOf(cells: seq<Rect>, minX: real, maxX: real, minY: real, maxY: real)
    requires forall c :: c in cells ==> minX <= c.x && c.Right() <= maxX && minY <= c.y && c.Bottom() <= maxY
    requires exists c :: c in cells && c.x == minX
    requires exists c :: c in cells && c.Right() == maxX
    requires exists c :: c in cells && c.y == minY
    requires exists c :: c in cells && c.Bottom() == maxY
    ensures |cells| > 0
    ensures SeqMin(Lefts(cells)) == minX && SeqMax(Rights(cells)) == maxX
    ensures SeqMin(Tops(cells)) == minY && SeqMax(Bottoms(cells)) == maxY
  {
    LeftExtent(cells, minX);
    RightExtent(cells, maxX);
    TopExtent(cells, minY);
    BottomExtent(cells, maxY);
  }

  lemma LeftExtent(cells: seq<Rect>, m: real)
    requires forall c :: c in cells ==> m <= c.x
    requires exists c :: c in cells && c.x == m
    ensures |cells| > 0 && SeqMin(Lefts(cells)) == m
  {
    var k :| 0 <= k < |cells| && cells[k].x == m;
    assert Lefts(cells)[k] == m;
    assert forall i :: 0 <= i < |cells| ==> m <= Lefts(cells)[i] by {
      forall i | 0 <= i < |cells| ensures m <= Lefts(cells)[i] {
        assert cells[i] in cells;
      }
    }
    MinAttained(Lefts(cells), m);
  }

  lemma RightExtent(cells: seq<Rect>, m: real)
    requires forall c :: c in cells ==> c.Right() <= m
    requires exists c :: c in cells && c.Right() == m
    ensures |cells| > 0 && SeqMax(Rights(cells)) == m
  {
    var k :| 0 <= k < |cells| && cells[k].Right() == m;
    assert Rights(cells)[k] == m;
    assert forall i :: 0 <= i < |cells| ==> Rights(cells)[i] <= m by {
      forall i | 0 <= i < |cells| ensures Rights(cells)[i] <= m {
        assert cells[i] in cells;
      }
    }
    MaxAttained(Rights(cells), m);
  }

  lemma TopExtent(cells: seq<Rect>, m: real)
    requires forall c :: c in cells ==> m <= c.y
    requires exists c :: c in cells && c.y == m
    ensures |cells| > 0 && SeqMin(Tops(cells)) == m
  {
    var k :| 0 <= k < |cells| && cells[k].y == m;
    assert Tops(cells)[k] == m;
    assert forall i :: 0 <= i < |cells| ==> m <= Tops(cells)[i] by {
      forall i | 0 <= i < |cells| ensures m <= Tops(cells)[i] {
        assert cells[i] in cells;
      }
    }
    MinAttained(Tops(cells), m);
  }

  lemma BottomExtent(cells: seq<Rect>, m: real)
    requires forall c :: c in cells ==> c.Bottom() <= m
    requires exists c :: c in cells && c.Bottom() == m
    ensures |cells| > 0 && SeqMax(Bottoms(cells)) == m
  {
    var k :| 0 <= k < |cells| && cells[k].Bottom() == m;
    assert Bottoms(cells)[k] == m;
    assert forall i :: 0 <= i < |cells| ==> Bottoms(cells)[i] <= m by {
      forall i | 0 <= i < |cells| ensures Bottoms(cells)[i] <= m {
        assert cells[i] in cells;
      }
    }
    MaxAttained(Bottoms(cells), m);
  }

  /** The x and the y coordinates of every platform edge, in list order. */
  function EdgeXs(ps: seq<Platform>): (r: seq<real>)
    ensures |r| == 2 * |ps|
    ensures forall i :: 0 <= i < |ps| ==> r[2 * i] == ps[i].rect.x && r[2 * i + 1] == ps[i].rect.Right()
  {
    if |ps| == 0 then [] else [ps[0].rect.x, ps[0].rect.Right()] + EdgeXs(ps[1..])
  }

  function EdgeYs(ps: seq<Platform>): (r: seq<real>)
    ensures |r| == 2 * |ps|
    ensures forall i :: 0 <= i < |ps| ==> r[2 * i] == ps[i].rect.y && r[2 * i + 1] == ps[i].rect.Bottom()
  {
    if |ps| == 0 then [] else [ps[0].rect.y, ps[0].rect.Bottom()] + EdgeYs(ps[1..])
  }

  const BorderWidth: real := ScreenWidth * 2.0
  const BorderHeight: real := ScreenHeight * 2.0

  /** The four border walls around the box from (minX, minY) to (maxX, maxY),
      left, right, top and bottom: each flush against its side of the box,
      `BorderWidth` or `BorderHeight` thick, the side walls reaching past
      the top and bottom ones and the top and bottom walls past the sides. */
  function Borders(minX: real, maxX: real, minY: real, maxY: real): (r: seq<Wall>)
    ensures |r| == 4 && forall i :: 0 <= i < 4 ==> r[i].visible
    ensures r[0].rect.Right() == minX && r[0].rect.width == BorderWidth
    ensures r[1].rect.x == maxX && r[1].rect.width == BorderWidth
    ensures r[2].rect.Bottom() == minY && r[2].rect.height == BorderHeight
    ensures r[3].rect.y == maxY && r[3].rect.height == BorderHeight
    ensures forall i :: 0 <= i < 2 ==>
      r[i].rect.y == minY - BorderHeight && r[i].rect.Bottom() == maxY + BorderHeight
    ensures forall i :: 2 <= i < 4 ==>
      r[i].rect.x == minX - BorderWidth && r[i].rect.Right() == maxX + BorderWidth
  {
    [ NewWall(minX - BorderWidth, minY - BorderHeight, BorderWidth, BorderHeight + (maxY - minY) + BorderHeight),
      NewWall(maxX, minY - BorderHeight, BorderWidth, BorderHeight + (maxY - minY) + BorderHeight),
      NewWall(minX - BorderWidth, minY - BorderHeight, 2.0 * BorderWidth + (maxX - minX), BorderHeight),
      NewWall(minX - BorderWidth, maxY, 2.0 * BorderWidth + (maxX - minX), BorderHeight) ]
  }

  /** `Scene.place_walls`: append a visible wall per grid cell, then the four
      border walls around the cells' extents, which are the bounding region
      of the platform edges. With no cells the source's `min` of an empty
      sequence raises ValueError, modelled as `None`. */
  function PlaceWalls(walls: seq<Wall>, platforms: seq<Platform>): (r: Option<seq<Wall>>)
    ensures var xs, ys := EdgeXs(platforms), EdgeYs(platforms);
      r.Some? <==> |platforms| > 0 && SeqMin(xs) < SeqMax(xs) && SeqMin(ys) < SeqMax(ys)
    ensures r.Some? ==>
      var xs, ys := EdgeXs(platforms), EdgeYs(platforms);
      r.value == walls + NewWalls(CreateSquares(xs, ys)) + Borders(SeqMin(xs), SeqMax(xs), SeqMin(ys), SeqMax(ys))
  {
    var xs := EdgeXs(platforms);
    var ys := EdgeYs(platforms);
    var cells := CreateSquares(xs, ys);
    if |cells| == 0 then None
    else
      CellExtents(xs, ys);
      var minX := SeqMin(Lefts(cells));
      var maxX := SeqMax(Rights(cells));
      var minY := SeqMin(Tops(cells));
      var maxY := SeqMax(Bottoms(cells));
      Some(walls + NewWalls(cells) + Borders(minX, maxX, minY, maxY))
  }

  /** Any platform of positive width and height gives the walls a region. */
  lemma PlaceWallsSucceeds(walls: seq<Wall>, platforms: seq<Platform>, k: int)
    requires 0 <= k < |platforms| && platforms[k].rect.width > 0.0 && platforms[k].rect.height > 0.0
    ensures PlaceWalls(walls, platforms).Some?
  {
    var xs, ys := EdgeXs(platforms), EdgeYs(platforms);
    assert SeqMin(xs) <= xs[2 * k] < xs[2 * k + 1] <= SeqMax(xs);
    assert SeqMin(ys) <= ys[2 * k] < ys[2 * k + 1] <= SeqMax(ys);
  }
}
